=== FILE: README.md ===
# UTF8Converter core, modelled in Dafny

This project models the `converter` package of UTF8Converter, a tool that re-encodes text files to UTF-8. The model covers three parts:

- **Input validation and output-path resolution** (`converter/utils.py`). `validate_input_file` checks, in order, that the input exists, is a file, and carries the `.txt` suffix (case-insensitive). `prepare_output_path` first rejects a destination with a wrong suffix. It then picks the output path by the three-way rule: an existing directory, a directory to be created, or a literal file. Finally it checks the output's suffix.
- **One file's conversion** (`converter/converter.py`). The `UTF8Converter` constructor validates and resolves both paths eagerly. `encoding_confidence` returns a forced label, or runs the charset detector on a leading sample of the file. `convert` refuses a missing label, decodes the input, and writes it back out as UTF-8.
- **Task building and the batch loop** (`converter/batch.py`). `make_converters` builds one converter per `*.txt` entry of a source directory, or one converter for a single source file. `batch_processing` runs every converter, catches whatever it raises, and ticks a progress counter once per converter.

The filesystem is an immutable map from paths to `File(content)` or `Dir`:

- A path is a sequence of name components. The empty path is the working directory and always exists.
- Every operation that touches the disk is a pure function. It returns the new state together with a `Result`, so the directories created before an exception stay visible to the caller.
- `mkdir(parents=True, exist_ok=True)`, whole-file writes and whole-file reads are modelled. Directories are created one component at a time, exactly like pathlib.

Things outside the package are parameters:

- The charset detector, the codec decoder and the UTF-8 encoder are uninterpreted functions, bundled in `Conversion.Codecs`.
- The order in which the operating system lists a directory is a parameter of the glob.

The modules follow the package: `Errors`, `Paths` (pathlib's `name`, `parent`, `/` and `suffix`), `FileSystem`, `Utils`, `Conversion` and `Batch`.

`make_converters` builds its list in a single comprehension, so the first exception aborts the whole build, whether it comes from validating an input or from resolving the output (`Batch.BuildStopsAtFailedConstructor`, `Batch.BuildAbortsOnAnyRefusedEntry`).

## Model

| member | source | states |
|---|---|---|
| Utils.ValidateInputFile | converter/utils.py:13-20 | The checks run in order: a missing path gives NotFound, then a non-file gives IsDirectory, then a suffix whose lower-case form is not allowed gives InvalidExtension. Success happens exactly for a file with an allowed suffix, and the path comes back unchanged. |
| Utils.ValidationSurvivesGrowth | converter/utils.py:14-19 | Validation looks only at the kind of entry and at the name. Its verdict on an existing path is the same on any later state that kept every entry's kind. |
| Utils.RefusalSurvivesNewDirectories | converter/utils.py:14-19 | An input that was refused stays refused after new directories appear. A missing path stays missing or becomes a directory, and both are refused. |
| Paths.Suffix | converter/utils.py:18 | pathlib's `suffix` of a name. When non-empty it is at least two characters, starts with a dot and is shorter than the name. |
| Paths.SuffixIsFromLastInnerDot | converter/utils.py:18 | The suffix is non-empty exactly when the name has a dot that is neither its first nor its last character and has no dot after it. The suffix then runs from that dot to the end of the name. |
| Paths.LastDotIsLast | converter/utils.py:18 | The dot the suffix rule finds is the last dot of the name, and when it finds none the name has no dot. |
| Paths.AllowedSuffixIgnoresCase | converter/utils.py:18 | A suffix passes the lower-cased membership test exactly when it spells `.txt` in any mix of upper and lower case. So `.TXT` passes wherever `.txt` does. |
| Paths.AllowedSuffixIsNonEmpty | converter/utils.py:46-49 | An accepted suffix has four characters, so a name without a suffix is always refused. |
| FileSystem.MkdirParents | converter/utils.py:41 | `mkdir(parents=True, exist_ok=True)`. On success the path is a directory, every existing entry is unchanged, and every new entry is a directory on the way to the path. It fails, with OutputWriteError, exactly when some prefix is a file and nothing between that file and the path exists. |
| FileSystem.BlockedByFileSteps | converter/utils.py:44 | The mkdir failure condition one component at a time. It never holds for the working directory or an existing directory, always holds for an existing file, and for an absent path it holds exactly when it holds for the parent. |
| FileSystem.MkdirGrows | converter/utils.py:41 | A successful mkdir keeps every existing entry with its kind and adds only directories. |
| FileSystem.MkdirPreservesWellFormed | converter/utils.py:44 | When every entry sits inside an existing directory before mkdir, the same holds afterwards. |
| FileSystem.AncestorsOfDirAreDirs | converter/utils.py:40-42 | In such a well-formed state every ancestor of a directory is a directory. |
| FileSystem.WriteFile | converter/converter.py:54 | `write_text` succeeds exactly when the target is writable: not a directory, with a directory as its parent. It then replaces that one entry by a file holding the data. |
| FileSystem.WriteFileFrame | converter/converter.py:54 | A write changes only the written path, keeps every kind, and keeps a well-formed state well formed. |
| FileSystem.ReadFile | converter/converter.py:35-36 | Reading the input: a missing path raises NotFound, a directory raises IsDirectory, and a file yields exactly its content. |
| Utils.ChooseOutput | converter/utils.py:38-45 | The three-way rule. An existing directory gives `dst / src.name` and creates nothing. An absent destination with the flag on is created with its parents and gives `dst / src.name`. Anything else gives `dst` itself after creating its parent. A failed mkdir is OutputWriteError with the state unchanged. Only directories are ever added. |
| Utils.PrepareOutputPath | converter/utils.py:33-50 | A non-empty disallowed destination suffix fails with InvalidExtension before anything is created, whatever the flag. Every success has an allowed suffix and is `dst` or `dst / src.name`. The only errors are InvalidExtension and OutputWriteError. Only directories are added. |
| Utils.PrepareOutputPathChooses | converter/utils.py:38-50 | Past the first check the result is the three-way rule followed by the final suffix check. Directories created by the rule stay when that check fails. |
| Utils.PrepareOutputPathIdempotent | converter/utils.py:38-45 | Re-running with the same arguments on the state it produced returns the same output and creates nothing more. |
| Utils.ExistingDirectoryDestinationAddsNothing | converter/utils.py:38-39 | An existing directory destination creates nothing, whatever the flag. The output is `dst / src.name`, accepted exactly when the source suffix is allowed. |
| Utils.DirectoryBranchesKeepSourceName | converter/utils.py:38-50 | With an allowed source suffix, the two directory branches never fail the final check. They give `dst / src.name` and leave `dst` a directory. |
| Utils.TxtNamedDestinationBecomesDirectory | converter/utils.py:40-42 | An absent destination named like a text file, with the flag on, is created as a directory and the output lands inside it. |
| Utils.SuffixlessFileDestinationFails | converter/utils.py:43-49 | In the literal-file branch, a destination without a suffix fails with InvalidExtension after its parent was created. |
| Utils.ExistingFileDestinationIsKept | converter/utils.py:43-45 | An existing file destination with an allowed suffix inside an existing directory is the output itself, and nothing is created. |
| Utils.PrepareOutputPathKeepsWellFormed | converter/utils.py:40-44 | Resolution keeps a well-formed state well formed. A destination it created exists afterwards together with all its ancestors. |
| Conversion.New | converter/converter.py:20-25 | The constructor validates first: a refused input is reported with the state untouched. A built converter has a file input and allowed suffixes on both paths. It keeps the given input, sample size and encoding, and its output is `dst` or `dst / input.name`. Only directories are added. |
| Conversion.NewResolvesThroughPrepare | converter/converter.py:22-25 | Once the input is accepted, the constructor's state and outcome are those of output-path resolution. |
| Conversion.ValidatedSurvivesGrowth | converter/converter.py:22-25 | What the constructor established about a converter still holds on any later state that kept every entry's kind. |
| Conversion.NewIntoDirectory | converter/converter.py:22-25 | An accepted input with an existing or to-be-created directory destination gives the output `dst / input.name`, and `dst` is a directory afterwards. The state is untouched when `dst` existed, and is exactly the `mkdir` of `dst` otherwise. |
| Conversion.NewIntoExistingFile | converter/converter.py:22-25 | An accepted input with an existing allowed file destination gives that file as the output, and nothing is created. |
| Conversion.ReadSample | converter/converter.py:35-39 | The detector sample is the first `min(size, sample_size)` bytes of the file. A sample size of -1 makes `f.read` read the whole file. Any smaller sample size makes `f.read` raise ValueError (InvalidSampleSize), and that happens exactly then. |
| Conversion.SmallFileIsSampledWhole | converter/converter.py:35-36 | A file no larger than the sample size is handed to the detector whole. |
| Conversion.EncodingConfidence | converter/converter.py:33-42 | A non-empty forced label gives `(label, 1.0)`; an empty one counts as not forced. Otherwise the detector's label is returned for the sample, and its confidence too, with 0.0 when it gave none. Reading a missing input or a directory raises its path error. On a file, a sample size below -1 raises InvalidSampleSize before the detector runs. |
| Conversion.ForcedEncodingReadsNoBytes | converter/converter.py:33-34 | With a forced label the answer is `(label, 1.0)` on every filesystem state, so no byte of the input is read. |
| Conversion.GuessDependsOnlyOnSample | converter/converter.py:35-42 | Two inputs that agree on their first `sample_size` bytes get the same guess. |
| Conversion.ReadText | converter/converter.py:53 | `read_text(encoding=...)` succeeds exactly when the input is a file whose content decodes under the label, and yields that text. A missing input or a directory raises its path error, and undecodable content raises DecodeError. |
| Conversion.Convert | converter/converter.py:49-54 | `convert` only adds to the filesystem: every entry that existed is still there with the same kind. A forced label is reported with confidence 1.0. |
| Conversion.ConvertOutcome | converter/converter.py:49-54 | The outcome in every case. A detection failure is passed on, and a missing or empty label fails with EncodingUndetected. A read or decode failure is passed on, and an unwritable output fails with OutputWriteError; all of these leave the filesystem as it was. If the output is writable and the text has no UTF-8 encoding, the output is left empty and EncodeError is raised, because `write_text` opens the file before it encodes. Otherwise the output holds the encoded text and the guess is reported. So `convert` succeeds exactly when a label is found, the input is a file that decodes under it, the output is writable and the text encodes. |
| Conversion.ConvertFrame | converter/converter.py:53-54 | Only the output ever changes, from a non-directory to a file with a directory as parent. Every failure except EncodeError leaves the filesystem as it was. The input is untouched unless it is also the output. |
| Conversion.ConvertDecodeFailure | converter/converter.py:53 | Input that is a file but does not decode under the label fails with DecodeError, and the filesystem is left as it was. |
| Conversion.ConvertOfValidatedConverter | converter/converter.py:49-54 | For a converter whose paths were validated, `convert` fails only with InvalidSampleSize, EncodingUndetected, DecodeError, EncodeError or OutputWriteError. InvalidSampleSize needs an unforced label and a sample size below -1. |
| Conversion.ConstructionCatchesPathErrors | converter/converter.py:22-25 | The input-validation errors surface at construction. Converting on any later state that kept every entry's kind never fails with NotFound, IsDirectory or InvalidExtension. It fails only with InvalidSampleSize (needing an unforced label and a sample size below -1), EncodingUndetected, DecodeError, EncodeError or OutputWriteError. |
| Conversion.ConvertLooksOnlyAtItsPaths | converter/converter.py:49-54 | What `convert` reports depends only on the input's entry and on whether the output and its parent are directories. |
| Conversion.ConvertIgnoresOtherOutputs | converter/converter.py:53-54 | Running another converter first leaves this converter's report unchanged, provided the other writes neither this one's input nor its output. |
| Batch.Glob | converter/batch.py:73 | `dir.glob("*.txt")`: exactly the existing entries of the directory that are named in the listing and whose names end in `.txt` (case-sensitive, dot-files included). There are no duplicates when the listing has none. |
| Batch.GlobFollowsListingOrder | converter/batch.py:73 | The glob yields its matches in listing order. The k-th match is the listing entry at the k-th kept position. Those positions strictly increase, and every matching position is kept. |
| Batch.GlobFindsEveryMatch | converter/batch.py:73 | With a faithful listing, the glob yields every matching entry of the directory exactly once. |
| Batch.GlobNamesDistinct | converter/batch.py:73 | The glob of one directory yields entries with pairwise distinct names. |
| Batch.BuildEach | converter/batch.py:65-74 | The comprehension: on success, one converter per file, in order. Each is built for its file, with the unexpanded `dst`, the given sample size and the forced encoding, and is validated on the final state. Only directories are added. How a failure ends the build is stated by `Batch.BuildEachFirstFails` and `Batch.BuildStopsAtFailedConstructor`. |
| Batch.BuiltForEachAt | converter/batch.py:65-74 | Read per index: the i-th converter of a build was built for the i-th file. |
| Batch.MakeConverters | converter/batch.py:63-83 | A directory source gives the build over its glob. Any other source gives exactly one converter for itself, built without the forced encoding. Only directories are added. |
| Batch.MakeConvertersOnDirectory | converter/batch.py:64-74 | On a directory source, `make_converters` is the build over the glob. |
| Batch.MadeConvertersAreValidated | converter/batch.py:63-83 | Every returned converter passed the constructor's path checks on the final state and carries the requested sample size. |
| Batch.BuildEachFirstFails | converter/batch.py:64-74 | A first constructor that raises ends the build with its error, on the state it left. |
| Batch.BuildStopsAtFailedConstructor | converter/batch.py:64-74 | If the converters for the first k files were built and the constructor for file k raises, for any reason, the whole build fails with that error on the state that constructor left. Nothing after file k is looked at. |
| Batch.BuildAbortsOnAnyRefusedEntry | converter/batch.py:64-74 | One refused entry anywhere in the glob makes the whole build fail. No partial list is returned and nothing is skipped. |
| Batch.BuildIntoDirectory | converter/batch.py:64-74 | With acceptable files and a directory destination (existing, or absent with the flag on), the build succeeds. Converter i reads file i and writes `dst / <its name>`. The first converter creates `dst` and the later ones find it existing and create nothing: the final state is the initial one when `dst` existed or there are no files, and exactly the `mkdir` of `dst` otherwise. |
| Batch.DirectoryModeOutputs | converter/batch.py:64-74 | When every globbed entry is accepted, a directory source into a directory destination succeeds; `dst` exists afterwards when the glob is non-empty. The outputs are `dst / <name>`, pairwise distinct, and none is another converter's input. |
| Batch.BuildIntoOneFile | converter/batch.py:64-74 | A directory source into an existing allowed file gives every converter that same file as its output, and nothing is created. |
| Batch.BatchProcessing | converter/batch.py:32-44 | One outcome per converter and progress equal to the number of converters, whether each one succeeded or failed. Outcome i is what converter i reports on the state the earlier ones left. The final state is the state after all of them. |
| Batch.StatesOnlyGrow | converter/batch.py:32-44 | Every state a converter meets during the batch kept every entry of the initial state with its kind. |
| Batch.IndependentOutcomesAreSolo | converter/batch.py:38-44 | For independent converters, each outcome is the one the converter would produce alone on the initial state. Independent means no shared output and no output that is another's input. |
| Batch.BatchOrderIrrelevant | converter/batch.py:38-44 | For independent converters, running them in any permuted order gives each converter the same outcome and the same progress count. |
| Batch.BatchReportsNoPathErrors | converter/batch.py:38-44 | Converters built by `make_converters` never report an input-validation error (NotFound, IsDirectory, InvalidExtension) in the batch. Every failure is a sample size below -1, a missing or undecodable label, text with no UTF-8 encoding, or a failed write. |

## Left out

- `cli.py`, `main.py`, `main2.py`: argument parsing, logging set-up and two superseded copies of the package are not part of this model.
- `converter/constants.py` is not part of this model. `ALLOWED_EXTENSIONS` is taken as `{".txt"}`. The default `SAMPLE_SIZE` is not a constant here: the sample size is a parameter of every operation, as the constructor allows.
- The charset detector is an uninterpreted deterministic function from bytes to an optional label and an optional confidence. Its heuristics are not modelled.
- Decoding and UTF-8 encoding are uninterpreted functions. An unknown codec name and malformed bytes are both `DecodeError`. Encoding may fail (`EncodeError`), for text holding a lone surrogate. Text-mode newline translation is folded into them, so no byte-for-byte round trip is claimed.
- The thread and process executors, `as_completed` ordering and the tqdm bar are replaced by a sequential fold. Concurrent interleavings, such as two converters racing on one output file, are not modelled.
- Batch.BatchOrderIrrelevant: stated only for independent converters, because with a shared output the last writer wins and the result depends on scheduling.
- Logging is not modelled: a caught exception becomes an `Err` outcome, and a success carries the guess the debug message prints. `convert` itself returns nothing.
- Confidence is a `real`. Floating-point rounding and the `:.2f` formatting are not modelled.
- FileSystem.MkdirParents: OS failures other than a file in the way, such as permissions, a full disk or read-only mounts, are not modelled. Every mkdir and write failure is the one error `OutputWriteError`.
- An output path that is an existing directory is not checked at construction: `prepare_output_path` returns `dst / src.name` without looking at it. Such a converter is built, and `convert` fails when it writes. The source raises IsADirectoryError there; the model reports OutputWriteError.
- Only regular files and directories exist in the model. A FIFO, socket or device file fails `is_file()`, so `validate_input_file` raises IsADirectoryError for it. The model has no such entries.
- Conversion.EncodingConfidence: the file size and the sample are taken from one snapshot of the filesystem. A file changing between `stat` and `read` is not modelled.
- Paths are already split into components. String parsing, `..`, absolute paths and symbolic links are not modelled.
- Paths.AllowedSuffixIgnoresCase: `str.lower()` is modelled for ASCII letters only. That is exact for the allowed set `{".txt"}`, because no other character lower-cases to `t` or `x`.
- The suffix rule is pathlib's long-standing one: the last dot, when it is neither the first nor the last character of the name.
- The order in which the operating system lists a directory is a parameter of `Batch.Glob`; `Batch.IsListing` ties it to the filesystem.
- Batch.Glob: the pattern is matched case-sensitively, as on POSIX systems. On Windows `glob("*.txt")` ignores case and would also yield `A.TXT`.

=== FILE: batch.dfy ===
/** Task building and the batch loop (converter/batch.py). The executor and
    the progress bar are replaced by a sequential fold over the converters
    that records one outcome and one progress tick per converter. */
module Batch {
  import opened Errors
  import opened Paths
  import opened FileSystem
  import opened Utils
  import opened Conversion

  predicate NoDuplicates<T(==)>(s: seq<T>) {
    forall i, j :: 0 <= i < j < |s| ==> s[i] != s[j]
  }

  /** The pattern `*.txt` as pathlib's glob applies it on POSIX: case-sensitive,
      and `*` also matches a leading dot or nothing at all. */
  predicate MatchesTxtPattern(name: string) {
    |name| >= 4 && name[|name| - 4..] == ".txt"
  }

  /** `listing` names exactly the entries of directory `dir`, once each, in the
      order the operating system lists them. */
  ghost predicate IsListing(fs: Fs, dir: Path, listing: seq<string>) {
    && NoDuplicates(listing)
    && forall n :: Exists(fs, Join(dir, n)) <==> n in listing
  }

  /** `dir.glob("*.txt")`: the matching entries of `dir`, files or not, in listing order. */
  function Glob(fs: Fs, dir: Path, listing: seq<string>): (r: seq<Path>)
    ensures forall p :: p in r <==>
      p != [] && Parent(p) == dir && Name(p) in listing && Exists(fs, p) && MatchesTxtPattern(Name(p))
    ensures |r| <= |listing|
    ensures NoDuplicates(listing) ==> NoDuplicates(r)
  {
    if listing == [] then []
    else
      var rest := Glob(fs, dir, listing[1..]);
      var p := Join(dir, listing[0]);
      assert forall q :: q != [] ==> q == Join(Parent(q), Name(q));
      assert NoDuplicates(listing) ==> p !in rest && NoDuplicates(listing[1..]);
      if Exists(fs, p) && MatchesTxtPattern(listing[0]) then [p] + rest else rest
  }

  /** `r` lists, in turn, the entries of `listing` at positions `idx`, joined onto `dir`. */
  predicate Picks(r: seq<Path>, dir: Path, listing: seq<string>, idx: seq<nat>) {
    && |idx| == |r|
    && forall k :: 0 <= k < |idx| ==> idx[k] < |listing| && r[k] == Join(dir, listing[idx[k]])
  }

  /** Listing positions in strictly increasing order. */
  predicate Increasing(s: seq<nat>) {
    forall k, l :: 0 <= k < l < |s| ==> s[k] < s[l]
  }

  /** Positions in a listing's tail, as positions in the listing itself: one
      per position, none of them the head's, and in the same order. */
  function Shift(t: seq<nat>): (r: seq<nat>)
    ensures |r| == |t|
    ensures forall k :: 0 <= k < |r| ==> 0 < r[k]
    ensures Increasing(t) ==> Increasing(r)
  {
    seq(|t|, k requires 0 <= k < |t| => t[k] + 1)
  }

  /** The listing positions `Glob` keeps. */
  function GlobIndices(fs: Fs, dir: Path, listing: seq<string>): seq<nat>
  {
    if listing == [] then []
    else
      var rest := Shift(GlobIndices(fs, dir, listing[1..]));
      if Exists(fs, Join(dir, listing[0])) && MatchesTxtPattern(listing[0]) then [0] + rest else rest
  }

  /** What is picked from a listing's tail is picked, one position further
      on, from the listing. */
  lemma PicksShift(r: seq<Path>, dir: Path, listing: seq<string>, t: seq<nat>)
    requires listing != [] && Picks(r, dir, listing[1..], t)
    ensures Picks(r, dir, listing, Shift(t))
  {
    var u := Shift(t);
    forall k | 0 <= k < |t|
      ensures u[k] < |listing| && r[k] == Join(dir, listing[u[k]])
    {
      assert listing[u[k]] == listing[1..][t[k]];
    }
  }

  /** Picking the head as well puts position 0 in front. */
  lemma PicksCons(p: Path, r: seq<Path>, dir: Path, listing: seq<string>, u: seq<nat>)
    requires listing != [] && p == Join(dir, listing[0]) && Picks(r, dir, listing, u)
    ensures Picks([p] + r, dir, listing, [0] + u)
  {
    forall k | 0 <= k < |u| + 1
      ensures ([0] + u)[k] < |listing| && ([p] + r)[k] == Join(dir, listing[([0] + u)[k]])
    {
      if k > 0 {
        assert ([0] + u)[k] == u[k - 1] && ([p] + r)[k] == r[k - 1];
      }
    }
  }

  /** The k-th match `glob` yields is the listing entry at position `idx[k]`. */
  lemma {:induction false} GlobIndicesPick(fs: Fs, dir: Path, listing: seq<string>)
    ensures Picks(Glob(fs, dir, listing), dir, listing, GlobIndices(fs, dir, listing))
  {
    if listing != [] {
      GlobIndicesPick(fs, dir, listing[1..]);
      var rest := Glob(fs, dir, listing[1..]);
      PicksShift(rest, dir, listing, GlobIndices(fs, dir, listing[1..]));
      var p := Join(dir, listing[0]);
      if Exists(fs, p) && MatchesTxtPattern(listing[0]) {
        PicksCons(p, rest, dir, listing, Shift(GlobIndices(fs, dir, listing[1..])));
      }
    }
  }

  /** The positions `GlobIndices` keeps strictly increase. */
  lemma {:induction false} GlobIndicesIncrease(fs: Fs, dir: Path, listing: seq<string>)
    ensures Increasing(GlobIndices(fs, dir, listing))
  {
    if listing != [] {
      GlobIndicesIncrease(fs, dir, listing[1..]);
    }
  }

  lemma {:induction false} GlobIndicesComplete(fs: Fs, dir: Path, listing: seq<string>)
    ensures forall i :: 0 <= i < |listing| && Exists(fs, Join(dir, listing[i])) && MatchesTxtPattern(listing[i]) ==>
      i in GlobIndices(fs, dir, listing)
  {
    if listing != [] {
      var tail := listing[1..];
      GlobIndicesComplete(fs, dir, tail);
      var t := GlobIndices(fs, dir, tail);
      var rest := Shift(t);
      forall i | 1 <= i < |listing| && Exists(fs, Join(dir, listing[i])) && MatchesTxtPattern(listing[i])
        ensures i in rest
      {
        assert tail[i - 1] == listing[i];
        var k :| 0 <= k < |t| && t[k] == i - 1;
        assert rest[k] == i;
      }
    }
  }

  /** `glob` yields matches in the order the directory listing gives them:
      the k-th result is the listing entry at position `idx[k]`, those
      positions strictly increase, and every matching position is among them. */
  lemma GlobFollowsListingOrder(fs: Fs, dir: Path, listing: seq<string>)
    ensures var r := Glob(fs, dir, listing);
      var idx := GlobIndices(fs, dir, listing);
      && Picks(r, dir, listing, idx)
      && Increasing(idx)
      && (forall i :: 0 <= i < |listing| && Exists(fs, Join(dir, listing[i])) && MatchesTxtPattern(listing[i]) ==>
            i in idx)
  {
    GlobIndicesPick(fs, dir, listing);
    GlobIndicesIncrease(fs, dir, listing);
    GlobIndicesComplete(fs, dir, listing);
  }

  /** Given a faithful listing, the glob yields every matching entry of the directory. */
  lemma GlobFindsEveryMatch(fs: Fs, dir: Path, listing: seq<string>)
    requires IsListing(fs, dir, listing)
    ensures forall p :: p in Glob(fs, dir, listing) <==>
      p != [] && Parent(p) == dir && Exists(fs, p) && MatchesTxtPattern(Name(p))
    ensures NoDuplicates(Glob(fs, dir, listing))
  {
    forall p | p != [] && Parent(p) == dir && Exists(fs, p)
      ensures Name(p) in listing
    {
      assert Join(dir, Name(p)) == p;
    }
  }

  /** Converter `c` is what the directory branch builds for `file`, checked on state `fs`. */
  ghost predicate BuiltFor(fs: Fs, file: Path, dst: Path, sampleSize: int, encoding: Option<string>, c: Utf8Converter) {
    && c.inputFile == file
    && c.sampleSize == sampleSize
    && c.encoding == encoding
    && (c.outputFile == dst || c.outputFile == Join(dst, Name(file)))
    && Validated(fs, c)
  }

  /** `cs` holds one converter per file, in the files' order. */
  ghost predicate BuiltForEach(fs: Fs, files: seq<Path>, dst: Path, sampleSize: int, encoding: Option<string>,
                               cs: seq<Utf8Converter>)
    decreases |files|
  {
    && |cs| == |files|
    && (files != [] ==>
          && BuiltFor(fs, files[0], dst, sampleSize, encoding, cs[0])
          && BuiltForEach(fs, files[1..], dst, sampleSize, encoding, cs[1..]))
  }

  lemma BuiltForEachCons(fs: Fs, files: seq<Path>, dst: Path, sampleSize: int, encoding: Option<string>,
                         c: Utf8Converter, cs: seq<Utf8Converter>)
    requires files != []
    requires BuiltFor(fs, files[0], dst, sampleSize, encoding, c)
    requires BuiltForEach(fs, files[1..], dst, sampleSize, encoding, cs)
    ensures BuiltForEach(fs, files, dst, sampleSize, encoding, [c] + cs)
  {
    assert ([c] + cs)[0] == c && ([c] + cs)[1..] == cs;
  }

  /** Restates `BuiltFor` for equal arguments. It carries no content of its own:
      it exists only so that `BuiltForEachAt` can rewrite by the equalities
      without the solver unfolding `BuiltFor`, which keeps that proof cheap. */
  lemma BuiltForSame(fs: Fs, file: Path, file': Path, dst: Path, sampleSize: int, encoding: Option<string>,
                     c: Utf8Converter, c': Utf8Converter)
    requires BuiltFor(fs, file, dst, sampleSize, encoding, c) && file == file' && c == c'
    ensures BuiltFor(fs, file', dst, sampleSize, encoding, c')
  {
  }

  /** Read per index: the i-th converter was built for the i-th file. */
  lemma {:induction false} BuiltForEachAt(fs: Fs, files: seq<Path>, dst: Path, sampleSize: int, encoding: Option<string>,
                                          cs: seq<Utf8Converter>, i: nat)
    requires BuiltForEach(fs, files, dst, sampleSize, encoding, cs) && i < |files|
    ensures |cs| == |files| && BuiltFor(fs, files[i], dst, sampleSize, encoding, cs[i])
    decreases i
  {
    if i > 0 {
      var rest, others := files[1..], cs[1..];
      BuiltForEachAt(fs, rest, dst, sampleSize, encoding, others, i - 1);
      BuiltForSame(fs, rest[i - 1], files[i], dst, sampleSize, encoding, others[i - 1], cs[i]);
    }
  }

  /** The comprehension of the directory branch: one `UTF8Converter` per file,
      built in order on the state the previous construction left. The first
      exception ends the build; no partial list is returned. */
  function BuildEach(fs: Fs, files: seq<Path>, dst: Path, sampleSize: int,
                     createOutputDir: bool, encoding: Option<string>): (r: Step<seq<Utf8Converter>>)
    ensures r.result.Ok? ==> BuiltForEach(r.fs, files, dst, sampleSize, encoding, r.result.value)
    ensures AddsOnlyDirs(fs, r.fs)
    decreases |files|
  {
    if files == [] then Step(fs, Ok([]))
    else
      var first := New(fs, files[0], dst, sampleSize, createOutputDir, encoding);
      match first.result
      case Err(e) => Step(first.fs, Err(e))
      case Ok(c) =>
        var rest := BuildEach(first.fs, files[1..], dst, sampleSize, createOutputDir, encoding);
        AddsOnlyDirsTransitive(fs, first.fs, rest.fs);
        match rest.result
        case Err(e) => Step(rest.fs, Err(e))
        case Ok(cs) =>
          ValidatedSurvivesGrowth(first.fs, rest.fs, c);
          BuiltForEachCons(rest.fs, files, dst, sampleSize, encoding, c, cs);
          Step(rest.fs, Ok([c] + cs))
  }

  /** One step of the build once the first converter has been made. */
  lemma BuildEachUnfold(fs: Fs, files: seq<Path>, dst: Path, sampleSize: int,
                        createOutputDir: bool, encoding: Option<string>)
    requires files != []
    requires New(fs, files[0], dst, sampleSize, createOutputDir, encoding).result.Ok?
    ensures var first := New(fs, files[0], dst, sampleSize, createOutputDir, encoding);
      var rest := BuildEach(first.fs, files[1..], dst, sampleSize, createOutputDir, encoding);
      var r := BuildEach(fs, files, dst, sampleSize, createOutputDir, encoding);
      && r.fs == rest.fs
      && (r.result.Ok? <==> rest.result.Ok?)
      && (rest.result.Ok? ==> r.result.value == [first.result.value] + rest.result.value)
  {
  }

  /** `make_converters`: a directory source yields one converter per glob match,
      each given the unexpanded `dst` and the forced `encoding`; any other
      source yields exactly one converter for itself, without the encoding. */
  function MakeConverters(fs: Fs, src: Path, dst: Path, sampleSize: int, createOutputDir: bool,
                          encoding: Option<string>, listing: seq<string>): (r: Step<seq<Utf8Converter>>)
    ensures IsDir(fs, src) && r.result.Ok? ==>
      BuiltForEach(r.fs, Glob(fs, src, listing), dst, sampleSize, encoding, r.result.value)
    ensures !IsDir(fs, src) ==>
      var single := New(fs, src, dst, sampleSize, createOutputDir, None);
      && r.fs == single.fs
      && (r.result.Ok? <==> single.result.Ok?)
      && (r.result.Ok? ==> r.result.value == [single.result.value])
      && (r.result.Ok? ==> r.result.value[0].inputFile == src && r.result.value[0].encoding == None)
    ensures AddsOnlyDirs(fs, r.fs)
  {
    if IsDir(fs, src) then
      BuildEach(fs, Glob(fs, src, listing), dst, sampleSize, createOutputDir, encoding)
    else
      var single := New(fs, src, dst, sampleSize, createOutputDir, None);
      match single.result
      case Err(e) => Step(single.fs, Err(e))
      case Ok(c) => Step(single.fs, Ok([c]))
  }

  /** On a directory source `make_converters` is the build over the glob. */
  lemma MakeConvertersOnDirectory(fs: Fs, src: Path, dst: Path, sampleSize: int, createOutputDir: bool,
                                  encoding: Option<string>, listing: seq<string>)
    requires IsDir(fs, src)
    ensures MakeConverters(fs, src, dst, sampleSize, createOutputDir, encoding, listing)
      == BuildEach(fs, Glob(fs, src, listing), dst, sampleSize, createOutputDir, encoding)
  {
  }

  /** Every converter `make_converters` returns passed the constructor's path checks. */
  lemma MadeConvertersAreValidated(fs: Fs, src: Path, dst: Path, sampleSize: int, createOutputDir: bool,
                                   encoding: Option<string>, listing: seq<string>)
    requires MakeConverters(fs, src, dst, sampleSize, createOutputDir, encoding, listing).result.Ok?
    ensures var r := MakeConverters(fs, src, dst, sampleSize, createOutputDir, encoding, listing);
      forall c :: c in r.result.value ==> Validated(r.fs, c) && c.sampleSize == sampleSize
  {
    var r := MakeConverters(fs, src, dst, sampleSize, createOutputDir, encoding, listing);
    if IsDir(fs, src) {
      BuiltForEachValidated(r.fs, Glob(fs, src, listing), dst, sampleSize, encoding, r.result.value);
    }
  }

  lemma BuiltForEachValidated(fs: Fs, files: seq<Path>, dst: Path, sampleSize: int, encoding: Option<string>,
                              cs: seq<Utf8Converter>)
    requires BuiltForEach(fs, files, dst, sampleSize, encoding, cs)
    ensures forall c :: c in cs ==> Validated(fs, c) && c.sampleSize == sampleSize
  {
    forall c | c in cs
      ensures Validated(fs, c) && c.sampleSize == sampleSize
    {
      var i :| 0 <= i < |cs| && cs[i] == c;
      BuiltForEachAt(fs, files, dst, sampleSize, encoding, cs, i);
    }
  }

  /** One refused entry aborts the whole build: there is no skip-and-continue. */
  lemma {:induction false} BuildAbortsOnAnyRefusedEntry(fs: Fs, files: seq<Path>, dst: Path, sampleSize: int,
                                                      createOutputDir: bool, encoding: Option<string>, k: nat)
    requires k < |files| && ValidateInputFile(fs, files[k]).Err?
    ensures BuildEach(fs, files, dst, sampleSize, createOutputDir, encoding).result.Err?
    decreases |files|
  {
    var first := New(fs, files[0], dst, sampleSize, createOutputDir, encoding);
    if k > 0 && first.result.Ok? {
      RefusalSurvivesNewDirectories(fs, first.fs, files[k]);
      assert files[1..][k - 1] == files[k];
      BuildAbortsOnAnyRefusedEntry(first.fs, files[1..], dst, sampleSize, createOutputDir, encoding, k - 1);
    }
  }

  /** A first constructor that raises ends the build with its error. */
  lemma BuildEachFirstFails(fs: Fs, files: seq<Path>, dst: Path, sampleSize: int,
                            createOutputDir: bool, encoding: Option<string>)
    requires files != []
    requires New(fs, files[0], dst, sampleSize, createOutputDir, encoding).result.Err?
    ensures var first := New(fs, files[0], dst, sampleSize, createOutputDir, encoding);
      BuildEach(fs, files, dst, sampleSize, createOutputDir, encoding) == Step(first.fs, Err(first.result.error))
  {
  }

  /** After a successful first constructor, a failing rest is the build's failure. */
  lemma BuildEachRestFails(fs: Fs, files: seq<Path>, dst: Path, sampleSize: int,
                           createOutputDir: bool, encoding: Option<string>)
    requires files != []
    requires New(fs, files[0], dst, sampleSize, createOutputDir, encoding).result.Ok?
    requires BuildEach(New(fs, files[0], dst, sampleSize, createOutputDir, encoding).fs,
                       files[1..], dst, sampleSize, createOutputDir, encoding).result.Err?
    ensures BuildEach(fs, files, dst, sampleSize, createOutputDir, encoding)
         == BuildEach(New(fs, files[0], dst, sampleSize, createOutputDir, encoding).fs,
                      files[1..], dst, sampleSize, createOutputDir, encoding)
  {
  }

  /** A successful build of a non-empty list starts with a successful
      constructor, after which the rest was built on the state it left. */
  lemma BuildEachOkUnfold(fs: Fs, files: seq<Path>, dst: Path, sampleSize: int,
                          createOutputDir: bool, encoding: Option<string>)
    requires files != []
    requires BuildEach(fs, files, dst, sampleSize, createOutputDir, encoding).result.Ok?
    ensures var first := New(fs, files[0], dst, sampleSize, createOutputDir, encoding);
      && first.result.Ok?
      && BuildEach(first.fs, files[1..], dst, sampleSize, createOutputDir, encoding).result.Ok?
      && BuildEach(first.fs, files[1..], dst, sampleSize, createOutputDir, encoding).fs
         == BuildEach(fs, files, dst, sampleSize, createOutputDir, encoding).fs
  {
    if New(fs, files[0], dst, sampleSize, createOutputDir, encoding).result.Err? {
      BuildEachFirstFails(fs, files, dst, sampleSize, createOutputDir, encoding);
    } else {
      BuildEachUnfold(fs, files, dst, sampleSize, createOutputDir, encoding);
    }
  }

  /** The tail of a non-empty prefix is a prefix of the tail. */
  lemma PrefixTail<T>(s: seq<T>, k: nat)
    requires 0 < k <= |s|
    ensures s[..k][0] == s[0] && s[..k][1..] == s[1..][..k - 1]
  {
  }

  /** The same, read on a prefix `files[..k]` of a longer list. */
  lemma BuildPrefixUnfold(fs: Fs, files: seq<Path>, dst: Path, sampleSize: int,
                          createOutputDir: bool, encoding: Option<string>, k: nat)
    requires 0 < k <= |files|
    requires BuildEach(fs, files[..k], dst, sampleSize, createOutputDir, encoding).result.Ok?
    ensures var first := New(fs, files[0], dst, sampleSize, createOutputDir, encoding);
      && first.result.Ok?
      && BuildEach(first.fs, files[1..][..k - 1], dst, sampleSize, createOutputDir, encoding).result.Ok?
      && BuildEach(first.fs, files[1..][..k - 1], dst, sampleSize, createOutputDir, encoding).fs
         == BuildEach(fs, files[..k], dst, sampleSize, createOutputDir, encoding).fs
  {
    PrefixTail(files, k);
    BuildEachOkUnfold(fs, files[..k], dst, sampleSize, createOutputDir, encoding);
  }

  /** The build stops at the first constructor that raises, whatever the cause
      (a refused input, a file in the way of `dst`, a refused output suffix):
      if the first `k` converters were built and the next one fails, the whole
      build fails with that error, on the state the failing constructor left. */
  lemma {:induction false} BuildStopsAtFailedConstructor(fs: Fs, files: seq<Path>, dst: Path, sampleSize: int,
                                                        createOutputDir: bool, encoding: Option<string>, k: nat)
    requires k < |files|
    requires BuildEach(fs, files[..k], dst, sampleSize, createOutputDir, encoding).result.Ok?
    requires New(BuildEach(fs, files[..k], dst, sampleSize, createOutputDir, encoding).fs,
                 files[k], dst, sampleSize, createOutputDir, encoding).result.Err?
    ensures var prefix := BuildEach(fs, files[..k], dst, sampleSize, createOutputDir, encoding);
      var failed := New(prefix.fs, files[k], dst, sampleSize, createOutputDir, encoding);
      BuildEach(fs, files, dst, sampleSize, createOutputDir, encoding) == Step(failed.fs, Err(failed.result.error))
    decreases k
  {
    if k == 0 {
      assert files[..0] == [];
      BuildEachFirstFails(fs, files, dst, sampleSize, createOutputDir, encoding);
    } else {
      var first := New(fs, files[0], dst, sampleSize, createOutputDir, encoding);
      BuildPrefixUnfold(fs, files, dst, sampleSize, createOutputDir, encoding, k);
      assert files[1..][k - 1] == files[k];
      BuildStopsAtFailedConstructor(first.fs, files[1..], dst, sampleSize, createOutputDir, encoding, k - 1);
      BuildEachRestFails(fs, files, dst, sampleSize, createOutputDir, encoding);
    }
  }

  /** When every file is acceptable and `dst` is, or is about to become, a
      directory, every converter writes `dst / <its file's name>`; the first one
      creates `dst` if needed and the later ones find it existing, so the final
      state is the initial one or exactly the `mkdir` of `dst`. */
  lemma {:induction false} BuildIntoDirectory(fs: Fs, files: seq<Path>, dst: Path, sampleSize: int,
                                            createOutputDir: bool, encoding: Option<string>)
    requires !DstSuffixRejected(dst)
    requires IsDir(fs, dst) || (!Exists(fs, dst) && createOutputDir && MkdirParents(fs, dst).Ok?)
    requires forall i :: 0 <= i < |files| ==> ValidateInputFile(fs, files[i]).Ok?
    ensures var r := BuildEach(fs, files, dst, sampleSize, createOutputDir, encoding);
      && r.result.Ok?
      && |r.result.value| == |files|
      && (forall i :: 0 <= i < |files| ==>
            r.result.value[i].inputFile == files[i] && r.result.value[i].outputFile == Join(dst, Name(files[i])))
      && (|files| > 0 || IsDir(fs, dst) ==> IsDir(r.fs, dst))
      && r.fs == (if IsDir(fs, dst) || |files| == 0 then fs else MkdirParents(fs, dst).value)
    decreases |files|
  {
    if files != [] {
      var first := New(fs, files[0], dst, sampleSize, createOutputDir, encoding);
      NewIntoDirectory(fs, files[0], dst, sampleSize, createOutputDir, encoding);
      var c := first.result.value;
      AllAcceptedSurviveGrowth(fs, first.fs, files[1..]);
      BuildIntoDirectory(first.fs, files[1..], dst, sampleSize, createOutputDir, encoding);
      var rest := BuildEach(first.fs, files[1..], dst, sampleSize, createOutputDir, encoding);
      var cs := rest.result.value;
      BuildEachUnfold(fs, files, dst, sampleSize, createOutputDir, encoding);
      OutputsIntoCons(files, dst, c, cs);
    }
  }

  /** Acceptable input files stay acceptable while the filesystem only grows. */
  lemma AllAcceptedSurviveGrowth(fs: Fs, fs': Fs, files: seq<Path>)
    requires Grows(fs, fs')
    requires forall i :: 0 <= i < |files| ==> ValidateInputFile(fs, files[i]).Ok?
    ensures forall i :: 0 <= i < |files| ==> ValidateInputFile(fs', files[i]).Ok?
  {
    forall i | 0 <= i < |files|
      ensures ValidateInputFile(fs', files[i]).Ok?
    {
      assert Exists(fs, files[i]);
      ValidationSurvivesGrowth(fs, fs', files[i]);
    }
  }

  lemma OutputsIntoCons(files: seq<Path>, dst: Path, c: Utf8Converter, cs: seq<Utf8Converter>)
    requires files != [] && |cs| == |files| - 1
    requires c.inputFile == files[0] && c.outputFile == Join(dst, Name(files[0]))
    requires forall i :: 0 <= i < |cs| ==>
      cs[i].inputFile == files[1..][i] && cs[i].outputFile == Join(dst, Name(files[1..][i]))
    ensures forall i :: 0 <= i < |files| ==>
      ([c] + cs)[i].inputFile == files[i] && ([c] + cs)[i].outputFile == Join(dst, Name(files[i]))
  {
    forall i | 1 <= i < |files|
      ensures ([c] + cs)[i].inputFile == files[i] && ([c] + cs)[i].outputFile == Join(dst, Name(files[i]))
    {
      assert ([c] + cs)[i] == cs[i - 1] && files[i] == files[1..][i - 1];
    }
  }

  lemma EveryIndexAccepted(fs: Fs, files: seq<Path>)
    requires forall p :: p in files ==> ValidateInputFile(fs, p).Ok?
    ensures forall i :: 0 <= i < |files| ==> ValidateInputFile(fs, files[i]).Ok?
  {
    forall i | 0 <= i < |files|
      ensures ValidateInputFile(fs, files[i]).Ok?
    {
      assert files[i] in files;
    }
  }

  /** The glob of one directory yields entries with pairwise distinct names. */
  lemma GlobNamesDistinct(fs: Fs, dir: Path, listing: seq<string>)
    requires NoDuplicates(listing)
    ensures var files := Glob(fs, dir, listing);
      forall i, j :: 0 <= i < |files| && 0 <= j < |files| && i != j ==> Name(files[i]) != Name(files[j])
  {
    var files := Glob(fs, dir, listing);
    forall i, j | 0 <= i < |files| && 0 <= j < |files| && i != j
      ensures Name(files[i]) != Name(files[j])
    {
      assert files[i] in files && files[j] in files;
      assert files[i] == Join(Parent(files[i]), Name(files[i]));
      assert files[j] == Join(Parent(files[j]), Name(files[j]));
      if i < j {
        assert files[i] != files[j];
      } else {
        assert files[j] != files[i];
      }
    }
  }

  /** Converters writing `dst / <name of their input>` for inputs with
      distinct names are independent. */
  lemma SameNameOutputsAreIndependent(files: seq<Path>, dst: Path, cs: seq<Utf8Converter>)
    requires |cs| == |files|
    requires forall i :: 0 <= i < |files| ==>
      cs[i].inputFile == files[i] && cs[i].outputFile == Join(dst, Name(files[i]))
    requires forall i, j :: 0 <= i < |files| && 0 <= j < |files| && i != j ==> Name(files[i]) != Name(files[j])
    ensures Independent(cs)
  {
    forall i, j | 0 <= i < |cs| && 0 <= j < |cs| && i != j
      ensures cs[i].outputFile != cs[j].outputFile && cs[i].outputFile != cs[j].inputFile
    {
      assert Name(cs[i].outputFile) == Name(files[i]);
      assert Name(cs[j].outputFile) == Name(files[j]);
    }
  }

  /** Directory mode into a directory destination, every globbed entry being
      acceptable: the build succeeds, outputs are `dst / <name>`, pairwise
      distinct, and `dst` exists afterwards when the glob is non-empty. */
  lemma DirectoryModeOutputs(fs: Fs, src: Path, dst: Path, sampleSize: int, createOutputDir: bool,
                             encoding: Option<string>, listing: seq<string>)
    requires IsDir(fs, src) && !DstSuffixRejected(dst) && NoDuplicates(listing)
    requires IsDir(fs, dst) || (!Exists(fs, dst) && createOutputDir && MkdirParents(fs, dst).Ok?)
    requires forall p :: p in Glob(fs, src, listing) ==> ValidateInputFile(fs, p).Ok?
    ensures var r := MakeConverters(fs, src, dst, sampleSize, createOutputDir, encoding, listing);
      var files := Glob(fs, src, listing);
      && r.result.Ok?
      && (forall i :: 0 <= i < |files| ==> r.result.value[i].outputFile == Join(dst, Name(files[i])))
      && (|files| > 0 ==> IsDir(r.fs, dst))
      && Independent(r.result.value)
  {
    var files := Glob(fs, src, listing);
    EveryIndexAccepted(fs, files);
    BuildIntoDirectory(fs, files, dst, sampleSize, createOutputDir, encoding);
    var built := BuildEach(fs, files, dst, sampleSize, createOutputDir, encoding);
    MakeConvertersOnDirectory(fs, src, dst, sampleSize, createOutputDir, encoding, listing);
    GlobNamesDistinct(fs, src, listing);
    SameNameOutputsAreIndependent(files, dst, built.result.value);
  }

  /** Directory mode into an existing file: every converter gets that same file
      as its output, so the conversions overwrite one another. */
  lemma {:induction false} BuildIntoOneFile(fs: Fs, files: seq<Path>, dst: Path, sampleSize: int,
                                          createOutputDir: bool, encoding: Option<string>)
    requires IsFile(fs, dst) && AllowedSuffix(Suffix(Name(dst))) && IsDir(fs, Parent(dst))
    requires forall i :: 0 <= i < |files| ==> ValidateInputFile(fs, files[i]).Ok?
    ensures var r := BuildEach(fs, files, dst, sampleSize, createOutputDir, encoding);
      && r.result.Ok?
      && r.fs == fs
      && forall i :: 0 <= i < |files| ==> r.result.value[i].outputFile == dst
    decreases |files|
  {
    if files != [] {
      NewIntoExistingFile(fs, files[0], dst, sampleSize, createOutputDir, encoding);
      BuildIntoOneFile(fs, files[1..], dst, sampleSize, createOutputDir, encoding);
      BuildEachUnfold(fs, files, dst, sampleSize, createOutputDir, encoding);
      var c := New(fs, files[0], dst, sampleSize, createOutputDir, encoding).result.value;
      var cs := BuildEach(fs, files[1..], dst, sampleSize, createOutputDir, encoding).result.value;
      OneOutputCons(dst, c, cs);
    }
  }

  lemma OneOutputCons(dst: Path, c: Utf8Converter, cs: seq<Utf8Converter>)
    requires c.outputFile == dst && forall i :: 0 <= i < |cs| ==> cs[i].outputFile == dst
    ensures forall i :: 0 <= i < |cs| + 1 ==> ([c] + cs)[i].outputFile == dst
  {
    forall i | 1 <= i < |cs| + 1
      ensures ([c] + cs)[i].outputFile == dst
    {
      assert ([c] + cs)[i] == cs[i - 1];
    }
  }

  /** Converters that cannot disturb one another: no two share an output, and
      none writes another one's input. */
  ghost predicate Independent(cs: seq<Utf8Converter>) {
    forall i, j :: 0 <= i < |cs| && 0 <= j < |cs| && i != j ==>
      cs[i].outputFile != cs[j].outputFile && cs[i].outputFile != cs[j].inputFile
  }

  /** What `batch_processing` leaves behind, sequentially: the filesystem, one
      outcome per converter (Ok carries the logged guess, Err the logged
      exception) and the progress counter. */
  datatype Report = Report(fs: Fs, outcomes: seq<Result<Guess>>, progress: nat)

  /** The filesystem as the i-th converter finds it: after the first i ran. */
  function StateBefore(codecs: Codecs, cs: seq<Utf8Converter>, fs: Fs, i: nat): Fs
    requires i <= |cs|
    decreases i
  {
    if i == 0 then fs else StateBefore(codecs, cs[1..], Convert(codecs, cs[0], fs).fs, i - 1)
  }

  /** `batch_processing`: run every converter, catch whatever it raises, and
      tick the progress counter once per converter in any case. */
  function BatchProcessing(codecs: Codecs, cs: seq<Utf8Converter>, fs: Fs): (r: Report)
    ensures |r.outcomes| == |cs| && r.progress == |cs|
    ensures forall i :: 0 <= i < |cs| ==>
      r.outcomes[i] == Convert(codecs, cs[i], StateBefore(codecs, cs, fs, i)).result
    ensures r.fs == StateBefore(codecs, cs, fs, |cs|)
    decreases |cs|
  {
    if cs == [] then Report(fs, [], 0)
    else
      var first := Convert(codecs, cs[0], fs);
      var rest := BatchProcessing(codecs, cs[1..], first.fs);
      Report(rest.fs, [first.result] + rest.outcomes, rest.progress + 1)
  }

  /** For independent converters each outcome is the one the converter would
      produce alone on the initial state: what ran before it does not matter. */
  lemma {:induction false} IndependentOutcomesAreSolo(codecs: Codecs, cs: seq<Utf8Converter>, fs: Fs)
    requires Independent(cs)
    ensures forall i :: 0 <= i < |cs| ==>
      BatchProcessing(codecs, cs, fs).outcomes[i] == Convert(codecs, cs[i], fs).result
    decreases |cs|
  {
    if cs != [] {
      var fs1 := Convert(codecs, cs[0], fs).fs;
      var tail := cs[1..];
      assert Independent(tail) by {
        forall i, j | 0 <= i < |tail| && 0 <= j < |tail| && i != j
          ensures tail[i].outputFile != tail[j].outputFile && tail[i].outputFile != tail[j].inputFile
        {
          assert tail[i] == cs[i + 1] && tail[j] == cs[j + 1];
        }
      }
      IndependentOutcomesAreSolo(codecs, tail, fs1);
      forall i | 1 <= i < |cs|
        ensures BatchProcessing(codecs, cs, fs).outcomes[i] == Convert(codecs, cs[i], fs).result
      {
        assert BatchProcessing(codecs, cs, fs).outcomes[i] == BatchProcessing(codecs, tail, fs1).outcomes[i - 1];
        assert tail[i - 1] == cs[i];
        ConvertIgnoresOtherOutputs(codecs, cs[i], cs[0], fs);
      }
    }
  }

  /** The completion order does not matter for independent converters: running
      them in any permuted order gives each converter the same outcome, and
      the same number of progress ticks. */
  lemma BatchOrderIrrelevant(codecs: Codecs, cs: seq<Utf8Converter>, perm: seq<nat>, permuted: seq<Utf8Converter>, fs: Fs)
    requires Independent(cs)
    requires |perm| == |cs| == |permuted|
    requires forall k :: 0 <= k < |perm| ==> perm[k] < |cs| && permuted[k] == cs[perm[k]]
    requires forall k, l :: 0 <= k < l < |perm| ==> perm[k] != perm[l]
    ensures forall k :: 0 <= k < |perm| ==>
      BatchProcessing(codecs, permuted, fs).outcomes[k] == BatchProcessing(codecs, cs, fs).outcomes[perm[k]]
    ensures BatchProcessing(codecs, permuted, fs).progress == BatchProcessing(codecs, cs, fs).progress
  {
    assert Independent(permuted) by {
      forall k, l | 0 <= k < |permuted| && 0 <= l < |permuted| && k != l
        ensures permuted[k].outputFile != permuted[l].outputFile && permuted[k].outputFile != permuted[l].inputFile
      {
        assert perm[k] != perm[l];
      }
    }
    IndependentOutcomesAreSolo(codecs, cs, fs);
    IndependentOutcomesAreSolo(codecs, permuted, fs);
  }

  /** Every state a converter meets in the batch grew from the initial one. */
  lemma {:induction false} StatesOnlyGrow(codecs: Codecs, cs: seq<Utf8Converter>, fs: Fs, i: nat)
    requires i <= |cs|
    ensures Grows(fs, StateBefore(codecs, cs, fs, i))
    decreases i
  {
    if i > 0 {
      var fs1 := Convert(codecs, cs[0], fs).fs;
      StatesOnlyGrow(codecs, cs[1..], fs1, i - 1);
      GrowsTransitive(fs, fs1, StateBefore(codecs, cs[1..], fs1, i - 1));
    }
  }

  /** Converters built by `make_converters` never report an input-validation
      error in the batch: every failure is a bad sample length (only when the
      requested one is below -1), a missing or undecodable label, text with no
      UTF-8 form, or a failed write. */
  lemma BatchReportsNoPathErrors(codecs: Codecs, fs: Fs, src: Path, dst: Path, sampleSize: int,
                                 createOutputDir: bool, encoding: Option<string>, listing: seq<string>)
    requires MakeConverters(fs, src, dst, sampleSize, createOutputDir, encoding, listing).result.Ok?
    ensures var built := MakeConverters(fs, src, dst, sampleSize, createOutputDir, encoding, listing);
      var report := BatchProcessing(codecs, built.result.value, built.fs);
      forall i :: 0 <= i < |report.outcomes| && report.outcomes[i].Err? ==>
        && report.outcomes[i].error in {InvalidSampleSize, EncodingUndetected, DecodeError, EncodeError, OutputWriteError}
        && (report.outcomes[i].error == InvalidSampleSize ==> sampleSize < -1)
  {
    var built := MakeConverters(fs, src, dst, sampleSize, createOutputDir, encoding, listing);
    var cs := built.result.value;
    MadeConvertersAreValidated(fs, src, dst, sampleSize, createOutputDir, encoding, listing);
    forall i | 0 <= i < |cs|
      ensures var o := Convert(codecs, cs[i], StateBefore(codecs, cs, built.fs, i)).result;
        o.Err? ==>
          && o.error in {InvalidSampleSize, EncodingUndetected, DecodeError, EncodeError, OutputWriteError}
          && (o.error == InvalidSampleSize ==> sampleSize < -1)
    {
      assert cs[i] in cs;
      StatesOnlyGrow(codecs, cs, built.fs, i);
      ValidatedSurvivesGrowth(built.fs, StateBefore(codecs, cs, built.fs, i), cs[i]);
      ConvertOfValidatedConverter(codecs, cs[i], StateBefore(codecs, cs, built.fs, i));
    }
  }
}

=== FILE: conversion.dfy ===
/** One file's conversion (converter/converter.py): the `UTF8Converter`
    constructor, its `encoding_confidence` property and `convert`. */
module Conversion {
  import opened Errors
  import opened Paths
  import opened FileSystem
  import opened Utils

  /** What the charset detector reports: a label (None when undecided) and a
      confidence, which may be missing from its answer. */
  datatype Detection = Detection(encoding: Option<string>, confidence: Option<real>)

  /** The external text machinery, held fixed for a run:
      `detect` is the charset detector applied to a byte sample;
      `readText` decodes a whole file's bytes under a label, None when the label
      is unknown or the bytes are malformed (it includes newline translation);
      `encodeUtf8` is how `write_text(..., encoding="utf-8")` encodes text, None
      when the text has no UTF-8 encoding (a lone surrogate, which decoders
      such as `unicode_escape` or `utf-7` can produce). */
  datatype Codecs = Codecs(
    detect: seq<byte> -> Detection,
    readText: (string, seq<byte>) -> Option<string>,
    encodeUtf8: string -> Option<seq<byte>>)

  /** The (label, confidence) pair `encoding_confidence` returns. */
  datatype Guess = Guess(encoding: Option<string>, confidence: real)

  /** A constructed `UTF8Converter`: a validated input, a resolved output. */
  datatype Utf8Converter = Utf8Converter(
    inputFile: Path,
    outputFile: Path,
    sampleSize: int,
    encoding: Option<string>)

  /** The path checks the constructor establishes about a converter. */
  ghost predicate Validated(fs: Fs, c: Utf8Converter) {
    && IsFile(fs, c.inputFile)
    && AllowedSuffix(Suffix(Name(c.inputFile)))
    && AllowedSuffix(Suffix(Name(c.outputFile)))
  }

  lemma ValidatedSurvivesGrowth(fs: Fs, fs': Fs, c: Utf8Converter)
    requires Validated(fs, c) && Grows(fs, fs')
    ensures Validated(fs', c)
  {
    FileStaysFile(fs, fs', c.inputFile);
  }

  /** `UTF8Converter.__init__`: validate the input, then resolve the output,
      both eagerly. A validation failure changes nothing; a resolution failure
      keeps whatever directories resolution created. */
  function New(fs: Fs, inputFile: Path, outputFile: Path, sampleSize: int,
               createOutputDir: bool, encoding: Option<string>): (r: Step<Utf8Converter>)
    ensures ValidateInputFile(fs, inputFile).Err? ==> r == Step(fs, Err(ValidateInputFile(fs, inputFile).error))
    ensures r.result.Ok? ==>
      && Validated(r.fs, r.result.value)
      && r.result.value.inputFile == inputFile
      && r.result.value.sampleSize == sampleSize
      && r.result.value.encoding == encoding
      && (r.result.value.outputFile == outputFile || r.result.value.outputFile == Join(outputFile, Name(inputFile)))
    ensures AddsOnlyDirs(fs, r.fs)
  {
    match ValidateInputFile(fs, inputFile)
    case Err(e) => Step(fs, Err(e))
    case Ok(input) =>
      var resolved := PrepareOutputPath(fs, input, outputFile, createOutputDir);
      match resolved.result
      case Err(e) => Step(resolved.fs, Err(e))
      case Ok(output) =>
        FileStaysFile(fs, resolved.fs, input);
        Step(resolved.fs, Ok(Utf8Converter(input, output, sampleSize, encoding)))
  }

  /** After a successful validation the constructor's state and outcome are
      those of `prepare_output_path`. */
  lemma NewResolvesThroughPrepare(fs: Fs, inputFile: Path, outputFile: Path, sampleSize: int,
                                  createOutputDir: bool, encoding: Option<string>)
    requires ValidateInputFile(fs, inputFile).Ok?
    ensures var r := New(fs, inputFile, outputFile, sampleSize, createOutputDir, encoding);
      var resolved := PrepareOutputPath(fs, inputFile, outputFile, createOutputDir);
      && r.fs == resolved.fs
      && (r.result.Ok? <==> resolved.result.Ok?)
      && (r.result.Ok? ==> r.result.value == Utf8Converter(inputFile, resolved.result.value, sampleSize, encoding))
  {
  }

  /** Building a converter for an acceptable input into a directory destination
      (existing, or absent and to be created) succeeds with output
      `dst / input.name`, and leaves `dst` an existing directory: the state is
      untouched when `dst` existed, and is exactly the `mkdir` of `dst` otherwise. */
  lemma NewIntoDirectory(fs: Fs, inputFile: Path, dst: Path, sampleSize: int,
                         createOutputDir: bool, encoding: Option<string>)
    requires ValidateInputFile(fs, inputFile).Ok? && !DstSuffixRejected(dst)
    requires IsDir(fs, dst) || (!Exists(fs, dst) && createOutputDir && MkdirParents(fs, dst).Ok?)
    ensures var r := New(fs, inputFile, dst, sampleSize, createOutputDir, encoding);
      && r.result == Ok(Utf8Converter(inputFile, Join(dst, Name(inputFile)), sampleSize, encoding))
      && IsDir(r.fs, dst)
      && r.fs == (if IsDir(fs, dst) then fs else MkdirParents(fs, dst).value)
  {
    DirectoryBranchesKeepSourceName(fs, inputFile, dst, createOutputDir);
    PrepareOutputPathChooses(fs, inputFile, dst, createOutputDir);
    NewResolvesThroughPrepare(fs, inputFile, dst, sampleSize, createOutputDir, encoding);
  }

  /** Building a converter for an acceptable input into an existing file
      destination succeeds with that file as output and creates nothing. */
  lemma NewIntoExistingFile(fs: Fs, inputFile: Path, dst: Path, sampleSize: int,
                            createOutputDir: bool, encoding: Option<string>)
    requires ValidateInputFile(fs, inputFile).Ok?
    requires IsFile(fs, dst) && AllowedSuffix(Suffix(Name(dst))) && IsDir(fs, Parent(dst))
    ensures New(fs, inputFile, dst, sampleSize, createOutputDir, encoding)
      == Step(fs, Ok(Utf8Converter(inputFile, dst, sampleSize, encoding)))
  {
    ExistingFileDestinationIsKept(fs, inputFile, dst, createOutputDir);
    NewResolvesThroughPrepare(fs, inputFile, dst, sampleSize, createOutputDir, encoding);
  }

  /** Python truthiness of an encoding label: None and "" count as no label.
      It decides both whether the constructor's `encoding` forces the label and
      whether the label `convert` obtained is usable. */
  predicate HasLabel(encoding: Option<string>) {
    encoding.Some? && encoding.value != ""
  }

  function Min(a: int, b: int): int {
    if a <= b then a else b
  }

  /** The bytes handed to the detector: the whole file when its size is at most
      `sampleSize`, otherwise `f.read(sampleSize)` on a buffered binary file,
      which reads the first `sampleSize` bytes, everything for -1, and raises
      ValueError for any other negative length. */
  function ReadSample(content: seq<byte>, sampleSize: int): (r: Result<seq<byte>>)
    ensures r.Err? <==> sampleSize < -1
    ensures r.Err? ==> r.error == InvalidSampleSize
    ensures 0 <= sampleSize ==> r == Ok(content[..Min(|content|, sampleSize)])
    ensures sampleSize == -1 ==> r == Ok(content)
  {
    if |content| <= sampleSize then
      assert content[..|content|] == content;
      Ok(content)
    else if sampleSize == -1 then Ok(content)
    else if sampleSize < 0 then Err(InvalidSampleSize)
    else Ok(content[..sampleSize])
  }

  /** `encoding_confidence`: a forced label is returned with confidence 1.0
      without touching the file; otherwise the detector judges the sample, and
      a confidence it leaves out counts as 0.0. Reading the input, or sampling
      it with a negative length other than -1, may raise. */
  function EncodingConfidence(codecs: Codecs, c: Utf8Converter, fs: Fs): (r: Result<Guess>)
    ensures HasLabel(c.encoding) ==> r == Ok(Guess(c.encoding, 1.0))
    ensures !HasLabel(c.encoding) ==>
      if !IsFile(fs, c.inputFile) then r == Err(ReadFile(fs, c.inputFile).error)
      else if c.sampleSize < -1 then r == Err(InvalidSampleSize)
      else
        var d := codecs.detect(ReadSample(ReadFile(fs, c.inputFile).value, c.sampleSize).value);
        && r.Ok?
        && r.value.encoding == d.encoding
        && (d.confidence.None? ==> r.value.confidence == 0.0)
        && (d.confidence.Some? ==> r.value.confidence == d.confidence.value)
  {
    if HasLabel(c.encoding) then
      Ok(Guess(c.encoding, 1.0))
    else
      match ReadFile(fs, c.inputFile)
      case Err(e) => Err(e)
      case Ok(content) =>
        match ReadSample(content, c.sampleSize)
        case Err(e) => Err(e)
        case Ok(sample) =>
          var detected := codecs.detect(sample);
          Ok(Guess(detected.encoding, if detected.confidence.Some? then detected.confidence.value else 0.0))
  }

  /** `Path.read_text(encoding=...)`: read the whole file, then decode it. */
  function ReadText(codecs: Codecs, encoding: string, fs: Fs, p: Path): (r: Result<string>)
    ensures r.Ok? <==> IsFile(fs, p) && codecs.readText(encoding, ReadFile(fs, p).value).Some?
    ensures r.Ok? ==> codecs.readText(encoding, ReadFile(fs, p).value) == Some(r.value)
    ensures !IsFile(fs, p) ==> r == Err(ReadFile(fs, p).error)
    ensures IsFile(fs, p) && codecs.readText(encoding, ReadFile(fs, p).value).None? ==> r == Err(DecodeError)
  {
    match ReadFile(fs, p)
    case Err(e) => Err(e)
    case Ok(content) =>
      match codecs.readText(encoding, content)
      case None => Err(DecodeError)
      case Some(text) => Ok(text)
  }

  /** `convert`: pick the label, refuse a missing or empty one, read and decode
      the whole input under it, and write the text as UTF-8 over the output.
      `write_text` opens the output with mode "w" (creating or truncating it)
      before it encodes, so an encoding failure leaves an empty output behind;
      every other failure happens before the output is touched. On success
      the guess is reported. */
  function Convert(codecs: Codecs, c: Utf8Converter, fs: Fs): (r: Step<Guess>)
    ensures r.result.Ok? && HasLabel(c.encoding) ==> r.result.value == Guess(c.encoding, 1.0)
    ensures Grows(fs, r.fs)
  {
    match EncodingConfidence(codecs, c, fs)
    case Err(e) => Step(fs, Err(e))
    case Ok(guess) =>
      if !HasLabel(guess.encoding) then
        Step(fs, Err(EncodingUndetected))
      else
        match ReadText(codecs, guess.encoding.value, fs, c.inputFile)
        case Err(e) => Step(fs, Err(e))
        case Ok(text) =>
          var encoded := codecs.encodeUtf8(text);
          var data := if encoded.Some? then encoded.value else [];
          match WriteFile(fs, c.outputFile, data)
          case Err(e) => Step(fs, Err(e))
          case Ok(fs1) =>
            WriteFileFrame(fs, c.outputFile, data);
            if encoded.Some? then Step(fs1, Ok(guess)) else Step(fs1, Err(EncodeError))
  }

  /** What `convert` leaves behind: only the output can change, and only an
      encoding failure, which comes after the output was opened, changes it
      without succeeding. */
  lemma ConvertFrame(codecs: Codecs, c: Utf8Converter, fs: Fs)
    // only an encoding failure, which comes after the output was opened, leaves a trace
    ensures var r := Convert(codecs, c, fs);
      r.result.Err? && r.result.error != EncodeError ==> r.fs == fs
    // the only entry that can change is the output, from a non-directory to a file
    ensures var r := Convert(codecs, c, fs);
      r.fs != fs ==>
        && Writable(fs, c.outputFile)
        && c.outputFile in r.fs && r.fs[c.outputFile].File?
        && r.fs == fs[c.outputFile := r.fs[c.outputFile]]
    // the input is only rewritten when it is also the output
    ensures var r := Convert(codecs, c, fs);
      c.inputFile != c.outputFile ==> Lookup(r.fs, c.inputFile) == Lookup(fs, c.inputFile)
  {
  }

  /** What `convert` does, case by case, and exactly when it succeeds. */
  lemma ConvertOutcome(codecs: Codecs, c: Utf8Converter, fs: Fs)
    // the outcome, case by case
    ensures var g := EncodingConfidence(codecs, c, fs);
      g.Err? ==> Convert(codecs, c, fs) == Step(fs, Err(g.error))
    ensures var g := EncodingConfidence(codecs, c, fs);
      g.Ok? && !HasLabel(g.value.encoding) ==> Convert(codecs, c, fs) == Step(fs, Err(EncodingUndetected))
    ensures var g := EncodingConfidence(codecs, c, fs);
      g.Ok? && HasLabel(g.value.encoding) ==>
        var text := ReadText(codecs, g.value.encoding.value, fs, c.inputFile);
        && (text.Err? ==> Convert(codecs, c, fs) == Step(fs, Err(text.error)))
        && (text.Ok? && !Writable(fs, c.outputFile) ==> Convert(codecs, c, fs) == Step(fs, Err(OutputWriteError)))
        && (text.Ok? && Writable(fs, c.outputFile) && codecs.encodeUtf8(text.value).None? ==>
              Convert(codecs, c, fs) == Step(fs[c.outputFile := File([])], Err(EncodeError)))
        && (text.Ok? && Writable(fs, c.outputFile) && codecs.encodeUtf8(text.value).Some? ==>
              Convert(codecs, c, fs) == Step(fs[c.outputFile := File(codecs.encodeUtf8(text.value).value)], Ok(g.value)))
    // success, in terms of the input, the codecs and the output alone
    ensures Convert(codecs, c, fs).result.Ok? <==>
      var g := EncodingConfidence(codecs, c, fs);
      && g.Ok? && HasLabel(g.value.encoding)
      && IsFile(fs, c.inputFile)
      && codecs.readText(g.value.encoding.value, ReadFile(fs, c.inputFile).value).Some?
      && Writable(fs, c.outputFile)
      && codecs.encodeUtf8(codecs.readText(g.value.encoding.value, ReadFile(fs, c.inputFile).value).value).Some?
  {
  }

  /** Content that does not decode under the label is refused before the
      output is opened. */
  lemma ConvertDecodeFailure(codecs: Codecs, c: Utf8Converter, fs: Fs)
    requires EncodingConfidence(codecs, c, fs).Ok?
    requires HasLabel(EncodingConfidence(codecs, c, fs).value.encoding)
    requires IsFile(fs, c.inputFile)
    requires codecs.readText(EncodingConfidence(codecs, c, fs).value.encoding.value, ReadFile(fs, c.inputFile).value).None?
    ensures Convert(codecs, c, fs) == Step(fs, Err(DecodeError))
  {
  }

  /** A forced label bypasses detection: the answer is the same on every
      filesystem state, so no byte of the input is read. */
  lemma ForcedEncodingReadsNoBytes(codecs: Codecs, c: Utf8Converter, fs: Fs, fs': Fs)
    requires HasLabel(c.encoding)
    ensures EncodingConfidence(codecs, c, fs) == EncodingConfidence(codecs, c, fs') == Ok(Guess(c.encoding, 1.0))
  {
  }

  /** Without a forced label the guess depends only on the input's first
      `sampleSize` bytes: two inputs that agree on them get the same guess. */
  lemma GuessDependsOnlyOnSample(codecs: Codecs, c: Utf8Converter, fs: Fs, fs': Fs, n: nat)
    requires !HasLabel(c.encoding) && c.sampleSize == n
    requires IsFile(fs, c.inputFile) && IsFile(fs', c.inputFile)
    requires var a := ReadFile(fs, c.inputFile).value; var b := ReadFile(fs', c.inputFile).value;
      |a| >= n && |b| >= n && a[..n] == b[..n]
    ensures EncodingConfidence(codecs, c, fs) == EncodingConfidence(codecs, c, fs')
  {
  }

  /** A file no larger than the sample size is handed to the detector whole. */
  lemma SmallFileIsSampledWhole(content: seq<byte>, sampleSize: int)
    requires |content| <= sampleSize
    ensures ReadSample(content, sampleSize) == Ok(content)
  {
  }

  /** Every input-validation error surfaces when the converter is built: once
      `New` succeeded, converting on any later state (one that only grew from
      the state `New` left) never fails with NotFound, IsDirectory or
      InvalidExtension. What remains is a bad sample length, a missing or
      undecodable label, text with no UTF-8 form, or a failed write. */
  lemma ConstructionCatchesPathErrors(codecs: Codecs, fs: Fs, inputFile: Path, outputFile: Path,
                                      sampleSize: int, createOutputDir: bool, encoding: Option<string>, later: Fs)
    requires New(fs, inputFile, outputFile, sampleSize, createOutputDir, encoding).result.Ok?
    requires Grows(New(fs, inputFile, outputFile, sampleSize, createOutputDir, encoding).fs, later)
    ensures var c := New(fs, inputFile, outputFile, sampleSize, createOutputDir, encoding).result.value;
      Convert(codecs, c, later).result.Err? ==>
        && Convert(codecs, c, later).result.error in
             {InvalidSampleSize, EncodingUndetected, DecodeError, EncodeError, OutputWriteError}
        && (Convert(codecs, c, later).result.error == InvalidSampleSize ==> sampleSize < -1 && !HasLabel(encoding))
  {
    var built := New(fs, inputFile, outputFile, sampleSize, createOutputDir, encoding);
    ValidatedSurvivesGrowth(built.fs, later, built.result.value);
    ConvertOfValidatedConverter(codecs, built.result.value, later);
  }

  /** The errors `convert` can raise for a converter whose paths were validated. */
  lemma ConvertOfValidatedConverter(codecs: Codecs, c: Utf8Converter, fs: Fs)
    requires Validated(fs, c)
    ensures Convert(codecs, c, fs).result.Err? ==>
      && Convert(codecs, c, fs).result.error in
           {InvalidSampleSize, EncodingUndetected, DecodeError, EncodeError, OutputWriteError}
      && (Convert(codecs, c, fs).result.error == InvalidSampleSize ==> c.sampleSize < -1 && !HasLabel(c.encoding))
  {
  }

  /** What `convert` reports depends only on the input's entry and on whether
      the output and its parent are directories; the rest of the filesystem
      is never consulted. */
  lemma ConvertLooksOnlyAtItsPaths(codecs: Codecs, c: Utf8Converter, fs: Fs, fs': Fs)
    requires Lookup(fs', c.inputFile) == Lookup(fs, c.inputFile)
    requires IsDir(fs', c.outputFile) == IsDir(fs, c.outputFile)
    requires IsDir(fs', Parent(c.outputFile)) == IsDir(fs, Parent(c.outputFile))
    ensures Convert(codecs, c, fs').result == Convert(codecs, c, fs).result
  {
    assert ReadFile(fs', c.inputFile) == ReadFile(fs, c.inputFile);
    assert EncodingConfidence(codecs, c, fs') == EncodingConfidence(codecs, c, fs);
  }

  /** Running converter `d` first does not change what converter `c` reports,
      provided `d` writes neither `c`'s input nor `c`'s output. */
  lemma ConvertIgnoresOtherOutputs(codecs: Codecs, c: Utf8Converter, d: Utf8Converter, fs: Fs)
    requires d.outputFile != c.inputFile && d.outputFile != c.outputFile
    ensures Convert(codecs, c, Convert(codecs, d, fs).fs).result == Convert(codecs, c, fs).result
  {
    var first := Convert(codecs, d, fs);
    if first.fs != fs {
      // only d's output changed, from a non-directory to a file
      assert forall q :: q != d.outputFile ==> Lookup(first.fs, q) == Lookup(fs, q);
      assert !IsDir(fs, d.outputFile) && !IsDir(first.fs, d.outputFile);
      ConvertLooksOnlyAtItsPaths(codecs, c, fs, first.fs);
    }
  }
}

=== FILE: errors.dfy ===
/** Failure-carrying values shared by every part of the converter model.
    The Python code signals failures by raising; each raise becomes an `Err`
    carrying one of the error kinds below. */
module Errors {

  /** A value Python may leave as `None`. */
  datatype Option<+T> = None | Some(value: T)

  /** The exceptions the converter package raises, by kind.
      - NotFound: FileNotFoundError from `validate_input_file` or from reading the input
      - IsDirectory: IsADirectoryError, raised while validating or reading the
        input, a path that must be a file and is a directory (or no file at all)
      - InvalidExtension: the ValueError raised for a disallowed suffix
      - InvalidSampleSize: the ValueError `f.read` raises for a negative length other than -1
      - EncodingUndetected: the ValueError raised when no encoding label is available
      - DecodeError: the input bytes cannot be decoded under the chosen label
      - EncodeError: the UnicodeEncodeError raised when the decoded text has no
        UTF-8 encoding (a lone surrogate, which some codecs produce)
      - OutputWriteError: creating a directory or writing the output file failed,
        including the IsADirectoryError of writing to an output that is a directory */
  datatype Error =
    | NotFound
    | IsDirectory
    | InvalidExtension
    | InvalidSampleSize
    | EncodingUndetected
    | DecodeError
    | EncodeError
    | OutputWriteError

  /** The outcome of a call that may raise. */
  datatype Result<+T> = Ok(value: T) | Err(error: Error)
}

=== FILE: filesystem.dfy ===
/** The filesystem the converter reads and writes, as an immutable map from
    paths to nodes, with the three operations the package performs on it:
    `Path.mkdir(parents=True, exist_ok=True)`, writing a whole file, and
    reading a whole file. */
module FileSystem {
  import opened Errors
  import opened Paths

  newtype byte = x: int | 0 <= x < 256

  datatype Node = File(content: seq<byte>) | Dir

  /** Every entry other than the working directory, which always exists. */
  type Fs = map<Path, Node>

  /** A new filesystem state paired with the outcome of the call that produced it;
      the state is returned even when the call raised, because the directories
      created before the raise stay on disk. */
  datatype Step<+T> = Step(fs: Fs, result: Result<T>)

  function Lookup(fs: Fs, p: Path): Option<Node> {
    if p == [] then Some(Dir) else if p in fs then Some(fs[p]) else None
  }

  /** `Path.exists()` */
  predicate Exists(fs: Fs, p: Path) {
    Lookup(fs, p).Some?
  }

  /** `Path.is_dir()` */
  predicate IsDir(fs: Fs, p: Path) {
    Lookup(fs, p) == Some(Dir)
  }

  /** `Path.is_file()` */
  predicate IsFile(fs: Fs, p: Path) {
    Lookup(fs, p).Some? && Lookup(fs, p).value.File?
  }

  /** Every entry sits inside an existing directory. */
  ghost predicate WellFormed(fs: Fs) {
    forall q :: q in fs && q != [] ==> IsDir(fs, Parent(q))
  }

  /** `fs'` keeps every entry of `fs` with the same kind; file contents may change. */
  ghost predicate Grows(fs: Fs, fs': Fs) {
    forall q :: Exists(fs, q) ==> Exists(fs', q) && (IsDir(fs, q) <==> IsDir(fs', q))
  }

  /** `fs'` grows from `fs` and every entry it adds is a directory. */
  ghost predicate AddsOnlyDirs(fs: Fs, fs': Fs) {
    && Grows(fs, fs')
    && forall q :: Exists(fs', q) && !Exists(fs, q) ==> IsDir(fs', q)
  }

  /** A file stays a file while the filesystem grows. */
  lemma FileStaysFile(fs: Fs, fs': Fs, p: Path)
    requires Grows(fs, fs') && IsFile(fs, p)
    ensures IsFile(fs', p)
  {
    assert Exists(fs, p);
  }

  lemma GrowsTransitive(fs: Fs, fs': Fs, fs'': Fs)
    requires Grows(fs, fs') && Grows(fs', fs'')
    ensures Grows(fs, fs'')
  {
  }

  lemma AddsOnlyDirsTransitive(fs: Fs, fs': Fs, fs'': Fs)
    requires AddsOnlyDirs(fs, fs') && AddsOnlyDirs(fs', fs'')
    ensures AddsOnlyDirs(fs, fs'')
  {
    forall q | Exists(fs'', q) && !Exists(fs, q)
      ensures IsDir(fs'', q)
    {
      if Exists(fs', q) {
        assert IsDir(fs', q);
      }
    }
  }

  /** In a well-formed state every ancestor of a directory is a directory. */
  lemma {:induction false} AncestorsOfDirAreDirs(fs: Fs, p: Path, k: nat)
    requires WellFormed(fs) && IsDir(fs, p) && k <= |p|
    ensures IsDir(fs, p[..k])
    decreases |p|
  {
    if k < |p| {
      var q := Parent(p);
      assert p != [] && p in fs;
      assert IsDir(fs, q);
      assert q[..k] == p[..k];
      AncestorsOfDirAreDirs(fs, q, k);
    } else {
      assert p[..k] == p;
    }
  }

  /** `p.mkdir(parents=True, exist_ok=True)`: create every missing directory from
      the nearest existing ancestor down to `p`. It raises when `p`, or the
      nearest existing ancestor of `p`, is a file; nothing is created then. */
  function MkdirParents(fs: Fs, p: Path): (r: Result<Fs>)
    ensures r.Ok? ==> IsDir(r.value, p)
    ensures r.Ok? ==> forall q :: Exists(fs, q) ==> Lookup(r.value, q) == Lookup(fs, q)
    ensures r.Ok? ==> forall q :: Exists(r.value, q) && !Exists(fs, q) ==> IsDir(r.value, q) && IsPrefix(q, p)
    ensures r.Err? <==> BlockedByFile(fs, p)
    ensures r.Err? ==> r.error == OutputWriteError
    decreases |p|
  {
    BlockedByFileSteps(fs, p);
    if p == [] then Ok(fs)
    else
      match Lookup(fs, p)
      case Some(Dir) => Ok(fs)
      case Some(File(_)) => Err(OutputWriteError)
      case None =>
        match MkdirParents(fs, Parent(p))
        case Err(e) => Err(e)
        case Ok(fs1) => Ok(fs1[p := Dir])
  }

  /** The condition under which `mkdir(parents=True, exist_ok=True)` raises:
      some prefix `p[..k]` is a file and nothing below it on the way to `p`
      exists yet (so the walk up from `p` stops at that file). */
  ghost predicate BlockedByFile(fs: Fs, p: Path) {
    exists k :: 0 < k <= |p| && IsFile(fs, p[..k]) && AbsentBetween(fs, p, k)
  }

  /** How `BlockedByFile` unfolds one path component at a time. */
  lemma BlockedByFileSteps(fs: Fs, p: Path)
    ensures p == [] ==> !BlockedByFile(fs, p)
    ensures IsDir(fs, p) ==> !BlockedByFile(fs, p)
    ensures p != [] && IsFile(fs, p) ==> BlockedByFile(fs, p)
    ensures p != [] && !Exists(fs, p) ==> (BlockedByFile(fs, p) <==> BlockedByFile(fs, Parent(p)))
  {
    if p != [] {
      assert p[..|p|] == p;
      if !Exists(fs, p) {
        if BlockedByFile(fs, p) {
          BlockedPassesToParent(fs, p);
        }
        if BlockedByFile(fs, Parent(p)) {
          BlockedComesFromParent(fs, p);
        }
      }
    }
  }

  lemma BlockedPassesToParent(fs: Fs, p: Path)
    requires p != [] && !Exists(fs, p) && BlockedByFile(fs, p)
    ensures BlockedByFile(fs, Parent(p))
  {
    var q := Parent(p);
    var k :| 0 < k <= |p| && IsFile(fs, p[..k]) && AbsentBetween(fs, p, k);
    assert k != |p| by {
      assert p[..|p|] == p;
    }
    assert q[..k] == p[..k];
    forall j | k < j <= |q|
      ensures !Exists(fs, q[..j])
    {
      assert q[..j] == p[..j];
    }
  }

  lemma BlockedComesFromParent(fs: Fs, p: Path)
    requires p != [] && !Exists(fs, p) && BlockedByFile(fs, Parent(p))
    ensures BlockedByFile(fs, p)
  {
    var q := Parent(p);
    var k :| 0 < k <= |q| && IsFile(fs, q[..k]) && AbsentBetween(fs, q, k);
    assert q[..k] == p[..k];
    forall j | k < j <= |p|
      ensures !Exists(fs, p[..j])
    {
      if j == |p| {
        assert p[..j] == p;
      } else {
        assert q[..j] == p[..j];
      }
    }
  }

  /** No ancestor of `p` longer than `p[..k]`, nor `p` itself, exists. */
  predicate AbsentBetween(fs: Fs, p: Path, k: nat) {
    forall j :: k < j <= |p| ==> !Exists(fs, p[..j])
  }

  /** A successful `mkdir` keeps every existing entry as it was. */
  lemma MkdirGrows(fs: Fs, p: Path)
    requires MkdirParents(fs, p).Ok?
    ensures AddsOnlyDirs(fs, MkdirParents(fs, p).value)
  {
    var fs' := MkdirParents(fs, p).value;
    forall q | Exists(fs, q)
      ensures Exists(fs', q) && (IsDir(fs, q) <==> IsDir(fs', q))
    {
      assert Lookup(fs', q) == Lookup(fs, q);
    }
  }

  /** A successful `mkdir` keeps the state well formed and adds no file. */
  lemma MkdirPreservesWellFormed(fs: Fs, p: Path)
    requires WellFormed(fs) && MkdirParents(fs, p).Ok?
    ensures WellFormed(MkdirParents(fs, p).value)
    ensures Grows(fs, MkdirParents(fs, p).value)
    decreases |p|
  {
    if p != [] && !Exists(fs, p) {
      MkdirPreservesWellFormed(fs, Parent(p));
    }
  }

  /** Opening `p` with mode "w" succeeds: it is not a directory and its parent is one. */
  predicate Writable(fs: Fs, p: Path) {
    !IsDir(fs, p) && IsDir(fs, Parent(p))
  }

  /** The file side of `Path.write_text`: open `p` with mode "w", creating or
      truncating it, and store the already encoded bytes. Fails when `p` is a
      directory or its parent is not an existing directory. */
  function WriteFile(fs: Fs, p: Path, data: seq<byte>): (r: Result<Fs>)
    ensures r.Ok? <==> Writable(fs, p)
    ensures r.Ok? ==> r.value == fs[p := File(data)] && p != []
    ensures r.Err? ==> r.error == OutputWriteError
  {
    if !Writable(fs, p) then Err(OutputWriteError)
    else Ok(fs[p := File(data)])
  }

  /** Writing changes only the written path, keeps every kind, and keeps the state well formed. */
  lemma WriteFileFrame(fs: Fs, p: Path, data: seq<byte>)
    requires WriteFile(fs, p, data).Ok?
    ensures Lookup(WriteFile(fs, p, data).value, p) == Some(File(data))
    ensures forall q :: q != p ==> Lookup(WriteFile(fs, p, data).value, q) == Lookup(fs, q)
    ensures Grows(fs, WriteFile(fs, p, data).value)
    ensures WellFormed(fs) ==> WellFormed(WriteFile(fs, p, data).value)
  {
  }

  /** `Path.read_bytes`: the whole content of a file. */
  function ReadFile(fs: Fs, p: Path): (r: Result<seq<byte>>)
    ensures r.Ok? <==> IsFile(fs, p)
    ensures r.Ok? ==> Lookup(fs, p) == Some(File(r.value))
    ensures !Exists(fs, p) ==> r == Err(NotFound)
    ensures IsDir(fs, p) ==> r == Err(IsDirectory)
  {
    match Lookup(fs, p)
    case None => Err(NotFound)
    case Some(Dir) => Err(IsDirectory)
    case Some(File(content)) => Ok(content)
  }
}

=== FILE: paths.dfy ===
/** Paths as pathlib sees them: a sequence of name components, and the
    `name`, `parent`, `/` and `suffix` operations the converter relies on. */
module Paths {
  import opened Errors

  /** A path relative to the working directory, one string per component.
      The empty sequence is the working directory itself (Python's `Path(".")`). */
  type Path = seq<string>

  /** The suffixes the converter accepts, all lower-case. */
  const ALLOWED_EXTENSIONS: set<string> := {".txt"}

  /** `Path.name`: the last component, or "" for the working directory. */
  function Name(p: Path): string {
    if p == [] then "" else p[|p| - 1]
  }

  /** `Path.parent`; the parent of the working directory is itself. */
  function Parent(p: Path): (r: Path)
    ensures p != [] ==> r + [Name(p)] == p && |r| == |p| - 1
  {
    if p == [] then [] else p[..|p| - 1]
  }

  /** The `/` operator: `dir / name`. */
  function Join(dir: Path, name: string): (r: Path)
    ensures r != [] && Parent(r) == dir && Name(r) == name
  {
    dir + [name]
  }

  /** `q` is `p` or one of its ancestors. */
  predicate IsPrefix(q: Path, p: Path) {
    |q| <= |p| && p[..|q|] == q
  }

  /** No dot occurs in `s` after index `i`. */
  predicate NoDotAfter(s: string, i: int) {
    forall j :: 0 <= j < |s| && i < j ==> s[j] != '.'
  }

  /** `str.rfind('.')`: the index of the last dot, if any. */
  function LastDot(s: string): (r: Option<nat>)
    ensures r.Some? ==> r.value < |s| && s[r.value] == '.'
  {
    if |s| == 0 then None
    else if s[|s| - 1] == '.' then Some(|s| - 1)
    else LastDot(s[..|s| - 1])
  }

  /** No dot follows the one `LastDot` finds, and when it finds none there is none. */
  lemma {:induction false} LastDotIsLast(s: string)
    ensures LastDot(s).Some? ==> NoDotAfter(s, LastDot(s).value)
    ensures LastDot(s).None? ==> NoDotAfter(s, -1)
    decreases |s|
  {
    if |s| > 0 && s[|s| - 1] != '.' {
      var t := s[..|s| - 1];
      LastDotIsLast(t);
      assert forall j :: 0 <= j < |t| ==> t[j] == s[j];
    }
  }

  /** A dot with no dot after it is the one `LastDot` finds. */
  lemma LastDotIsTheLastDot(s: string, i: nat)
    requires i < |s| && s[i] == '.' && NoDotAfter(s, i)
    ensures LastDot(s) == Some(i)
  {
    LastDotIsLast(s);
  }

  /** `PurePath.suffix` applied to a name: from the last dot to the end, provided
      that dot is neither the first nor the last character; otherwise "". */
  function Suffix(name: string): (r: string)
    ensures r != "" ==> 2 <= |r| < |name| && r[0] == '.'
  {
    var d := LastDot(name);
    if d.Some? && 0 < d.value < |name| - 1 then name[d.value..] else ""
  }

  /** The suffix is non-empty exactly when some dot, neither first nor last in
      the name, has no dot after it; the suffix then starts at that dot. */
  lemma SuffixIsFromLastInnerDot(name: string)
    ensures Suffix(name) != "" <==> exists i :: 0 < i < |name| - 1 && name[i] == '.' && NoDotAfter(name, i)
    ensures forall i :: 0 < i < |name| - 1 && name[i] == '.' && NoDotAfter(name, i) ==> Suffix(name) == name[i..]
  {
    forall i | 0 < i < |name| - 1 && name[i] == '.' && NoDotAfter(name, i)
      ensures Suffix(name) == name[i..]
    {
      LastDotIsTheLastDot(name, i);
    }
    if Suffix(name) != "" {
      LastDotIsLast(name);
      var d := LastDot(name).value;
      assert 0 < d < |name| - 1 && name[d] == '.' && NoDotAfter(name, d);
    }
  }

  /** ASCII lower-casing of one character. */
  function LowerChar(c: char): char {
    if 'A' <= c <= 'Z' then (c as int + 32) as char else c
  }

  /** `str.lower()` restricted to ASCII letters. */
  function Lower(s: string): string {
    seq(|s|, i requires 0 <= i < |s| => LowerChar(s[i]))
  }

  /** `suffix.lower() in ALLOWED_EXTENSIONS`. */
  predicate AllowedSuffix(suffix: string) {
    Lower(suffix) in ALLOWED_EXTENSIONS
  }

  /** A suffix is accepted exactly when it spells ".txt" in any mix of cases,
      so ".TXT" and ".Txt" pass wherever ".txt" does. */
  lemma AllowedSuffixIgnoresCase(suffix: string)
    ensures AllowedSuffix(suffix) <==>
      |suffix| == 4 && suffix[0] == '.' && suffix[1] in {'t', 'T'} && suffix[2] in {'x', 'X'} && suffix[3] in {'t', 'T'}
  {
    var low := Lower(suffix);
    if |suffix| == 4 && suffix[0] == '.' && suffix[1] in {'t', 'T'} && suffix[2] in {'x', 'X'} && suffix[3] in {'t', 'T'} {
      assert low[0] == '.' && low[1] == 't' && low[2] == 'x' && low[3] == 't';
      assert low == ".txt";
    }
    if AllowedSuffix(suffix) {
      assert low == ".txt";
      assert |low| == 4 && low[1] == 't' && low[2] == 'x' && low[3] == 't';
      assert LowerChar(suffix[0]) == low[0];
      assert LowerChar(suffix[1]) == low[1];
      assert LowerChar(suffix[2]) == low[2];
      assert LowerChar(suffix[3]) == low[3];
      assert suffix[1] == 't' || suffix[1] == 'T';
      assert suffix[2] == 'x' || suffix[2] == 'X';
      assert suffix[3] == 't' || suffix[3] == 'T';
    }
  }

  /** An accepted suffix is never empty: a name without a suffix is always refused. */
  lemma AllowedSuffixIsNonEmpty(suffix: string)
    requires AllowedSuffix(suffix)
    ensures |suffix| == 4 && suffix != ""
  {
    assert Lower(suffix) == ".txt";
  }
}

=== FILE: utils.dfy ===
/** Input validation and output-path resolution (converter/utils.py). */
module Utils {
  import opened Errors
  import opened Paths
  import opened FileSystem

  /** The destination's own suffix is non-empty and not an allowed one. */
  predicate DstSuffixRejected(dst: Path) {
    Suffix(Name(dst)) != "" && !AllowedSuffix(Suffix(Name(dst)))
  }

  /** `validate_input_file`: the path must exist, then be a file, then carry an
      allowed suffix (compared case-insensitively); it is returned unchanged. */
  function ValidateInputFile(fs: Fs, src: Path): (r: Result<Path>)
    ensures r.Ok? <==> IsFile(fs, src) && AllowedSuffix(Suffix(Name(src)))
    ensures r.Ok? ==> r.value == src
    ensures !Exists(fs, src) ==> r == Err(NotFound)
    ensures Exists(fs, src) && !IsFile(fs, src) ==> r == Err(IsDirectory)
    ensures IsFile(fs, src) && !AllowedSuffix(Suffix(Name(src))) ==> r == Err(InvalidExtension)
  {
    if !Exists(fs, src) then Err(NotFound)
    else if !IsFile(fs, src) then Err(IsDirectory)
    else if !AllowedSuffix(Suffix(Name(src))) then Err(InvalidExtension)
    else Ok(src)
  }

  /** Validation looks only at the kind of entry and the name, so a verdict made
      earlier still holds after directories were created or files rewritten. */
  lemma ValidationSurvivesGrowth(fs: Fs, fs': Fs, src: Path)
    requires Grows(fs, fs') && Exists(fs, src)
    ensures ValidateInputFile(fs', src) == ValidateInputFile(fs, src)
  {
    assert Exists(fs', src) && (IsDir(fs, src) <==> IsDir(fs', src));
  }

  /** An input refused on one state stays refused on any state that only gained
      directories: a missing path is still missing or has become a directory. */
  lemma RefusalSurvivesNewDirectories(fs: Fs, fs': Fs, src: Path)
    requires AddsOnlyDirs(fs, fs') && ValidateInputFile(fs, src).Err?
    ensures ValidateInputFile(fs', src).Err?
  {
    if Exists(fs, src) {
      ValidationSurvivesGrowth(fs, fs', src);
    }
  }

  /** The three-way rule of `prepare_output_path` that picks the output path:
      an existing directory `dst` gives `dst / src.name`; otherwise, with
      `createOutputDir` and `dst` absent, `dst` is created with its parents and
      the output is `dst / src.name`; otherwise `dst` itself is the output file
      and its parent is created. */
  function ChooseOutput(fs: Fs, src: Path, dst: Path, createOutputDir: bool): (r: Step<Path>)
    ensures r.result.Ok? ==> r.result.value == dst || r.result.value == Join(dst, Name(src))
    ensures r.result.Err? ==> r == Step(fs, Err(OutputWriteError))
    // an existing directory: nothing is created, the output goes inside it
    ensures IsDir(fs, dst) ==> r == Step(fs, Ok(Join(dst, Name(src))))
    // an absent directory to be created
    ensures !Exists(fs, dst) && createOutputDir ==>
      (r.result.Ok? <==> MkdirParents(fs, dst).Ok?) &&
      (r.result.Ok? ==> IsDir(r.fs, dst) && r.result.value == Join(dst, Name(src)) && r.fs == MkdirParents(fs, dst).value)
    // a literal output file: its parent exists afterwards
    ensures !IsDir(fs, dst) && (Exists(fs, dst) || !createOutputDir) ==>
      (r.result.Ok? <==> MkdirParents(fs, Parent(dst)).Ok?) &&
      (r.result.Ok? ==> IsDir(r.fs, Parent(dst)) && r.result.value == dst && r.fs == MkdirParents(fs, Parent(dst)).value)
    ensures AddsOnlyDirs(fs, r.fs)
  {
    if IsDir(fs, dst) then
      Step(fs, Ok(Join(dst, Name(src))))
    else if createOutputDir && !Exists(fs, dst) then
      match MkdirParents(fs, dst)
      case Err(e) => Step(fs, Err(e))
      case Ok(fs1) =>
        MkdirGrows(fs, dst);
        Step(fs1, Ok(Join(dst, Name(src))))
    else
      match MkdirParents(fs, Parent(dst))
      case Err(e) => Step(fs, Err(e))
      case Ok(fs1) =>
        MkdirGrows(fs, Parent(dst));
        Step(fs1, Ok(dst))
  }

  /** `prepare_output_path`: a non-empty destination suffix that is not allowed
      raises before anything else; then `ChooseOutput` picks the output (possibly
      creating directories); the chosen output must carry an allowed suffix. */
  function PrepareOutputPath(fs: Fs, src: Path, dst: Path, createOutputDir: bool): (r: Step<Path>)
    // an invalid destination suffix fails before anything is created, whatever the flag
    ensures DstSuffixRejected(dst) ==> r == Step(fs, Err(InvalidExtension))
    // every successful output has an allowed suffix and is dst or dst / src.name
    ensures r.result.Ok? ==> AllowedSuffix(Suffix(Name(r.result.value)))
    ensures r.result.Ok? ==> r.result.value == dst || r.result.value == Join(dst, Name(src))
    ensures r.result.Err? ==> r.result.error in {InvalidExtension, OutputWriteError}
    ensures AddsOnlyDirs(fs, r.fs)
  {
    if DstSuffixRejected(dst) then
      Step(fs, Err(InvalidExtension))
    else
      var chosen := ChooseOutput(fs, src, dst, createOutputDir);
      match chosen.result
      case Err(e) => chosen
      case Ok(output) =>
        if AllowedSuffix(Suffix(Name(output))) then chosen
        else Step(chosen.fs, Err(InvalidExtension))
  }

  /** Past the first check, `prepare_output_path` is the three-way rule
      followed by the final suffix check, and the directories the rule created
      stay even when that check fails. */
  lemma PrepareOutputPathChooses(fs: Fs, src: Path, dst: Path, createOutputDir: bool)
    requires !DstSuffixRejected(dst)
    ensures var r := PrepareOutputPath(fs, src, dst, createOutputDir);
      var chosen := ChooseOutput(fs, src, dst, createOutputDir);
      && r.fs == chosen.fs
      && (r.result.Ok? <==> chosen.result.Ok? && AllowedSuffix(Suffix(Name(chosen.result.value))))
      && (r.result.Ok? ==> r.result.value == chosen.result.value)
      && (chosen.result.Ok? && !r.result.Ok? ==> r.result == Err(InvalidExtension))
  {
  }

  /** Re-running `prepare_output_path` with the same arguments on the state it
      produced returns the same output and creates nothing more. */
  lemma {:induction false} PrepareOutputPathIdempotent(fs: Fs, src: Path, dst: Path, createOutputDir: bool)
    requires PrepareOutputPath(fs, src, dst, createOutputDir).result.Ok?
    ensures var first := PrepareOutputPath(fs, src, dst, createOutputDir);
      PrepareOutputPath(first.fs, src, dst, createOutputDir) == first
  {
    var first := PrepareOutputPath(fs, src, dst, createOutputDir);
    var fs1 := first.fs;
    if IsDir(fs, dst) {
      assert fs1 == fs;
    } else if createOutputDir && !Exists(fs, dst) {
      assert IsDir(fs1, dst);
      assert ChooseOutput(fs1, src, dst, createOutputDir) == Step(fs1, Ok(Join(dst, Name(src))));
    } else {
      assert dst != [];
      assert IsDir(fs1, Parent(dst));
      if Exists(fs, dst) {
        assert Lookup(fs1, dst) == Lookup(fs, dst);
      } else {
        // mkdir only added ancestors of the parent, all shorter than dst
        assert !IsPrefix(dst, Parent(dst));
        assert !Exists(fs1, dst);
      }
      assert !IsDir(fs1, dst) && (Exists(fs1, dst) || !createOutputDir);
      assert MkdirParents(fs1, Parent(dst)) == Ok(fs1);
      assert ChooseOutput(fs1, src, dst, createOutputDir) == Step(fs1, Ok(dst));
    }
  }

  /** An existing directory destination is used as is, whatever the flag: nothing
      is created, and the output `dst / src.name` is accepted exactly when the
      source's own suffix is allowed. */
  lemma ExistingDirectoryDestinationAddsNothing(fs: Fs, src: Path, dst: Path, createOutputDir: bool)
    requires IsDir(fs, dst) && !DstSuffixRejected(dst)
    ensures var r := PrepareOutputPath(fs, src, dst, createOutputDir);
      && r.fs == fs
      && (r.result.Ok? <==> AllowedSuffix(Suffix(Name(src))))
      && (r.result.Ok? ==> r.result.value == Join(dst, Name(src)))
      && (r.result.Err? ==> r.result.error == InvalidExtension)
  {
    PrepareOutputPathChooses(fs, src, dst, createOutputDir);
    assert Name(Join(dst, Name(src))) == Name(src);
  }

  /** With an allowed source suffix the two directory branches cannot fail the
      final suffix check: the output is `dst / src.name`. */
  lemma DirectoryBranchesKeepSourceName(fs: Fs, src: Path, dst: Path, createOutputDir: bool)
    requires AllowedSuffix(Suffix(Name(src))) && !DstSuffixRejected(dst)
    requires IsDir(fs, dst) || (!Exists(fs, dst) && createOutputDir && MkdirParents(fs, dst).Ok?)
    ensures PrepareOutputPath(fs, src, dst, createOutputDir).result == Ok(Join(dst, Name(src)))
    ensures IsDir(PrepareOutputPath(fs, src, dst, createOutputDir).fs, dst)
  {
  }

  /** A destination without a suffix that is not a directory, and will not be
      created as one, fails the final check, after its parent was created. */
  lemma SuffixlessFileDestinationFails(fs: Fs, src: Path, dst: Path, createOutputDir: bool)
    requires Suffix(Name(dst)) == "" && !IsDir(fs, dst) && (Exists(fs, dst) || !createOutputDir)
    requires MkdirParents(fs, Parent(dst)).Ok?
    ensures PrepareOutputPath(fs, src, dst, createOutputDir) == Step(MkdirParents(fs, Parent(dst)).value, Err(InvalidExtension))
    ensures IsDir(PrepareOutputPath(fs, src, dst, createOutputDir).fs, Parent(dst))
  {
  }

  /** An existing file destination with an allowed suffix, inside an existing
      directory, is used as the output itself and nothing is created. */
  lemma ExistingFileDestinationIsKept(fs: Fs, src: Path, dst: Path, createOutputDir: bool)
    requires IsFile(fs, dst) && AllowedSuffix(Suffix(Name(dst))) && IsDir(fs, Parent(dst))
    ensures PrepareOutputPath(fs, src, dst, createOutputDir) == Step(fs, Ok(dst))
  {
    assert dst != [] && MkdirParents(fs, Parent(dst)) == Ok(fs);
    assert ChooseOutput(fs, src, dst, createOutputDir) == Step(fs, Ok(dst));
  }

  /** A destination spelled like a text file but absent, with directory creation
      on, is created as a DIRECTORY and the output lands inside it. */
  lemma TxtNamedDestinationBecomesDirectory(fs: Fs, src: Path, dst: Path)
    requires !Exists(fs, dst) && AllowedSuffix(Suffix(Name(dst))) && AllowedSuffix(Suffix(Name(src)))
    requires MkdirParents(fs, dst).Ok?
    ensures IsDir(PrepareOutputPath(fs, src, dst, true).fs, dst)
    ensures PrepareOutputPath(fs, src, dst, true).result == Ok(Join(dst, Name(src)))
  {
  }

  /** On a well-formed filesystem the resolution keeps it well formed, and a
      destination it created exists together with all its ancestors. */
  lemma PrepareOutputPathKeepsWellFormed(fs: Fs, src: Path, dst: Path, createOutputDir: bool)
    requires WellFormed(fs)
    ensures WellFormed(PrepareOutputPath(fs, src, dst, createOutputDir).fs)
    ensures var r := PrepareOutputPath(fs, src, dst, createOutputDir);
      !DstSuffixRejected(dst) && !Exists(fs, dst) && createOutputDir && MkdirParents(fs, dst).Ok? ==>
        forall k :: 0 <= k <= |dst| ==> IsDir(r.fs, dst[..k])
  {
    var r := PrepareOutputPath(fs, src, dst, createOutputDir);
    if !DstSuffixRejected(dst) && !IsDir(fs, dst) {
      if createOutputDir && !Exists(fs, dst) {
        if MkdirParents(fs, dst).Ok? {
          MkdirPreservesWellFormed(fs, dst);
          forall k | 0 <= k <= |dst|
            ensures IsDir(r.fs, dst[..k])
          {
            AncestorsOfDirAreDirs(r.fs, dst, k);
          }
        }
      } else if MkdirParents(fs, Parent(dst)).Ok? {
        MkdirPreservesWellFormed(fs, Parent(dst));
      }
    }
  }
}
